=== FILE: README.md ===
# Portfolio site: access gate, text transforms, inbox and storage, in Dafny

This project models the decision and string logic of a portfolio web site built with Next.js on a hosted database-and-storage service. The model covers four parts:

- **Access gate** (`gate.dfy`). The request middleware redirects visitors without a session away from `/admin…` and signed-in users away from `/login`. The admin layout shows "Access Denied" unless the session's profile has `is_admin`. The login page sends signed-in users on. Two client helpers merge the session user with the profile and compute `isAdmin`. Every layer is a total function to an `Outcome` (`Pass`, `Redirect`, `Denied`, `Render`). The lemmas prove the layers agree and no redirect loops.
- **Text transforms**:
  - `text.dfy` holds the JavaScript string operations the site uses: whitespace class, ASCII `toLowerCase`, `trim`, `split`, `join`, `includes`, and `replace(/\s+/g, c)`.
  - `slug.dfy` derives a slug from a title.
  - `comma_list.dfy` parses the categories and tags lists.
  - `excerpt.dfy` holds the whitespace stages of `stripMarkdown`, the 150-character previews, the four-post selection and the HTML-tag strip of the feed cards.
- **Moderation and inbox** (`inbox.dfy`). Fetched comments are split into pending and approved lists, and messages into unread and read. The model also states which per-row actions each list offers.
- **Storage**:
  - `policies.dfy`: the six row-level-security policy templates for a bucket.
  - `object_path.dfy`: how uploaded files are named.
  - `storage.dfy`: an abstract object store, which is a bucket list plus a map from (bucket, path) to content. Every call can fail with an injected error message. `ensureBucketExists`, `ensureFolderExists` and `uploadFile` are written over it.
  - `upload_route.dfy`: the `POST /api/upload` handler.
  - `upload_diagnostic.dfy`: the `GET /api/upload/test` diagnostic.
  - `image_upload.dfy`: the admin image-upload widget.
  - `forms.dfy`: the new-post and new-project forms that consume the widget.

Row shapes of the five tables are in `rows.dfy`. An optional key of an Insert or Update shape is an `Option`. An optional key whose column is nullable is an `Option<Option<_>>`: absent, null, or a value. `wrappers.dfy` and `seqs.dfy` hold `Option`, `Filter`, subsequences and order.

Things the code cannot know are inputs to the model:

- random file-name stems and `Date.now()`;
- the current time for `published_at`;
- the database's column defaults;
- whether a query or storage call failed, and with what message;
- the markdown stages of `stripMarkdown` that come before the whitespace stages.

The storage writes have no access check in the code. `POST /api/upload` and `GET /api/upload/test` read neither a session nor the admin flag. The middleware matcher covers only `/admin`, `/admin/…` and `/login`, so `/api/…` requests pass it untouched. The model therefore lets any caller upload (`UploadRoute.AnyoneCanUpload`, `UploadDiagnostic.AnonymousNotRejected`).

## Model

| member | source | states |
|---|---|---|
| Gate.Middleware | src/middleware.ts:25-42 | Redirects to "/login" exactly when there is no user and the path starts with "/admin". Redirects to "/admin" exactly when there is a user and the path is "/login". Passes exactly when neither holds. |
| Gate.GateRequest | src/middleware.ts:44-46 | Only paths in the matcher scope ("/admin", "/admin/…", "/login") can be redirected; all others pass. |
| Gate.MiddlewareRedirectsExclusive | src/middleware.ts:30-39 | The two redirect branches never both apply: one needs no user, the other a user. |
| Gate.MiddlewareNoLoop | src/middleware.ts:30-41 | Following a middleware redirect with the same session passes through. |
| Gate.PrefixTestMatchesScope | src/middleware.ts:30 | Inside the matcher scope, the plain `startsWith('/admin')` test selects exactly the admin paths. |
| Gate.ProfileQuery | src/app/admin/layout.tsx:43-48 | `.single()` yields a profile only when the query did not fail and exactly one row has the id. |
| Gate.AdminLayout | src/app/admin/layout.tsx:36-66 | No user: redirect to "/login". A user with a missing or non-admin profile: Access Denied. Renders exactly when a user has an admin profile. |
| Gate.LoginPage | src/app/login/page.tsx:31-50 | Redirects to "/admin" exactly when a user resolves; otherwise renders the form; the profile plays no part. |
| Gate.GetCurrentUser | src/lib/supabase.ts:15-29 | Null without a session. With a profile, the merged user takes the profile's id, email and `is_admin`; without one, the session user's. |
| Gate.IsAdmin | src/lib/supabase.ts:32-35 | True exactly when there is a session whose profile resolves with `is_admin` set; false without a session. |
| Gate.AdminPageRequest | src/app/admin/layout.tsx:36-66 | Middleware then layout on an admin path never simply passes. |
| Gate.LoginRequest | src/app/login/page.tsx:31-35 | Middleware then login page on "/login" never simply passes. |
| Gate.AdminPageRendersOnlyForAdmins | src/app/admin/layout.tsx:36-66 | An admin page renders exactly when `isAdmin` holds. It redirects to "/login" exactly when there is no session. |
| Gate.MiddlewareAndLayoutAgree | src/middleware.ts:30-33 | On admin paths, the middleware and the layout send the same requests to "/login". |
| Gate.MiddlewareAndLoginPageAgree | src/app/login/page.tsx:31-35 | On "/login", the middleware and the login page make the same decision, or the middleware passes and the page renders. |
| Gate.NonAdminFromLogin | src/app/login/page.tsx:33-35 | A signed-in non-admin is sent from "/login" to "/admin" and denied there. |
| Gate.RedirectsSettleInOneStep | src/middleware.ts:30-41 | Following any redirect once, with the same session, reaches a response that is not a redirect. |
| Text.Lower | src/app/admin/blog/new/page.tsx:47 | `toLowerCase` keeps the length and maps each character to its ASCII lower case. |
| Text.ContainsInfix | src/lib/supabase-storage.ts:63 | `includes` finds any text placed between two others. |
| Text.Erase | src/app/admin/blog/new/page.tsx:48 | Removing a character leaves none of it and shortens the text by its count. |
| Text.Trim | src/app/admin/blog/new/page.tsx:68 | `trim` yields the middle part of the text; neither of its ends is whitespace, and only whitespace was removed. |
| Text.TrimUnchanged | src/components/supabase-blog-posts.tsx:31 | Trimming text that has no whitespace at either end changes nothing. |
| Text.TrimIdempotent | src/components/supabase-blog-posts.tsx:31 | Trimming twice is trimming once. |
| Text.Split | src/app/admin/blog/new/page.tsx:67 | `split` gives one more piece than there are separators, and no piece holds a separator. |
| Text.JoinSplit | src/app/admin/blog/new/page.tsx:67 | Joining the pieces of a split with the separator gives back the text. |
| Text.SplitJoin | src/app/admin/blog/new/page.tsx:67 | Splitting a join of separator-free pieces gives back the pieces. |
| Text.ReplaceRuns | src/components/supabase-blog-posts.tsx:30 | `replace(/\s+/g, c)` is empty exactly when its input is. Every character it yields is `c` or a non-space character of the input. Its first character is `c` when the input starts with whitespace, and the input's first character otherwise. |
| Text.ReplaceRunsKeepsWords | src/components/supabase-blog-posts.tsx:30 | With a whitespace replacement, the collapse keeps exactly the input's non-whitespace characters, in order. |
| Text.TrimKeepsWords | src/components/supabase-blog-posts.tsx:31 | `trim` keeps every non-whitespace character, in order. |
| Text.ReplaceRunsNoDoubled | src/components/supabase-blog-posts.tsx:30 | After the run replacement, the replacement character never occurs twice in a row. |
| Text.ReplaceRunsFixpoint | src/components/supabase-blog-posts.tsx:30 | Text whose whitespace is single spaces is unchanged by the run replacement. |
| Text.ReplaceRunsNoSpace | src/components/supabase-blog-posts.tsx:30 | Text without whitespace is unchanged by the run replacement. |
| Text.ReplaceRunsAtRun | src/components/supabase-blog-posts.tsx:30 | A maximal whitespace run between two parts, of any length and mix of whitespace characters, becomes exactly one replacement character, and each part is collapsed on its own. |
| Text.EraseReplaceRuns | src/app/admin/blog/new/page.tsx:49 | Erasing the replacement character after the run replacement leaves exactly the non-space characters. |
| Slug.SlugOf | src/app/admin/blog/new/page.tsx:45-49 | A slug has no whitespace and only the characters a–z, 0–9, '_' and '-'. |
| Slug.GenerateSlug | src/app/admin/blog/new/page.tsx:43-52 | An empty title keeps the current slug; otherwise the slug is made of slug characters. |
| Slug.SlugHasNoDoubleHyphen | src/app/admin/blog/new/page.tsx:48-49 | A slug never contains "--". |
| Slug.SlugJoinsWords | src/app/admin/blog/new/page.tsx:45-49 | Two non-empty words of lower-case letters, digits and '_' separated by one space become the two words joined by exactly one '-'. |
| Slug.SlugWithoutHyphens | src/app/admin/blog/new/page.tsx:47-49 | A slug with its '-' removed equals the word characters of the lower-cased title, in order. |
| CommaList.TrimAll | src/app/admin/blog/new/page.tsx:68 | Each piece is trimmed, none is dropped. |
| CommaList.Parse | src/app/admin/blog/new/page.tsx:66-69 | Each item is trimmed, non-empty and comma-free. There are at most commas + 1 items, and the trim of every non-blank piece occurs among the items. |
| CommaList.ParseJoinRoundTrip | src/app/admin/blog/new/page.tsx:66-69 | Parsing the comma-join of non-empty, trimmed, comma-free items gives back exactly those items, with their multiplicities and order. |
| CommaList.ParseKeepsOrder | src/app/admin/projects/new/page.tsx:51-54 | The items are a subsequence of the trimmed pieces, in input order. |
| CommaList.BlankInputParsesEmpty | src/app/admin/projects/new/page.tsx:51-54 | Input made only of commas and whitespace yields no items. |
| Rows.StoreComment | src/types/supabase.ts:114-132 | A stored comment keeps the Insert's required fields and takes `approved` from the Insert when given. |
| Rows.CommentInsertRoundTrip | src/types/supabase.ts:115-132 | An Insert naming every column is stored as given, whatever the defaults. |
| Rows.StoreMessage | src/types/supabase.ts:143-161 | A stored message keeps the Insert's required fields and takes `read` from the Insert when given. |
| Rows.MessageInsertRoundTrip | src/types/supabase.ts:144-161 | An Insert naming every column is stored as given. |
| Rows.StoreProfile | src/types/supabase.ts:12-30 | A stored profile keeps id and email, and takes `is_admin` from the Insert when given. |
| Rows.ProfileInsertRoundTrip | src/types/supabase.ts:13-30 | An Insert naming every column is stored as given. |
| Rows.ApplyProfileUpdate | src/types/supabase.ts:31-39 | An Update overwrites exactly the keys it carries. |
| Rows.EmptyProfileUpdateKeepsRow | src/types/supabase.ts:31-39 | An Update with no keys changes nothing. |
| Rows.ProfileUpdateIdempotent | src/types/supabase.ts:31-39 | Applying the same Update twice is applying it once. |
| Excerpt.BlankLines | src/components/supabase-blog-posts.tsx:29 | `replace(/\n\s*\n/g, ' ')` never lengthens the text and keeps its first character's class. |
| Excerpt.BlankLinesWithoutNewline | src/components/supabase-blog-posts.tsx:29 | Text with no newline is unchanged by the blank-line stage. |
| Excerpt.BlankLinesAbsorbed | src/components/supabase-blog-posts.tsx:29-30 | The blank-line stage changes nothing that the following `\s+` collapse keeps. |
| Excerpt.NormalizeSpace | src/components/supabase-blog-posts.tsx:29-31 | The output has no whitespace at either end. Its only whitespace is single spaces, never two in a row. |
| Excerpt.BlankLineStageRedundant | src/components/supabase-blog-posts.tsx:29-31 | The three whitespace stages equal collapse-then-trim. |
| Excerpt.NormalizeSpaceIdempotent | src/components/supabase-blog-posts.tsx:30-31 | Normalising twice is normalising once. |
| Excerpt.NormalizeSpaceJoinsWords | src/components/supabase-blog-posts.tsx:29-31 | Two non-empty words with any non-empty whitespace run between them normalise to the two words separated by exactly one ' '. |
| Excerpt.NormalizeSpaceKeepsWords | src/components/supabase-blog-posts.tsx:29-31 | The whitespace stages keep exactly the input's non-whitespace characters, in order. |
| Excerpt.StripMarkdown | src/components/supabase-blog-posts.tsx:10-32 | Whatever the markup stages do, the output is trimmed, with only single spaces as whitespace. |
| Excerpt.StripMarkdownKeepsWords | src/components/supabase-blog-posts.tsx:10-32 | The non-whitespace characters of the output are exactly those the markup stages leave, in order. |
| Excerpt.Preview | src/components/supabase-blog-posts.tsx:100-102 | The preview is the text's first min(len, 150) characters followed by "...". |
| Excerpt.PostPreview | src/components/supabase-blog-posts.tsx:99-102 | A card previews the stripped excerpt when it is non-empty and the stripped content otherwise. It shows exactly the first min(len, 150) characters of that text, then "...". |
| Excerpt.PreviewSource | src/components/supabase-blog-posts.tsx:99 | The excerpt unless it is null or empty, else the content (the logical-or fallback). |
| Excerpt.ShortPostPreviewKeepsWords | src/components/supabase-blog-posts.tsx:99-102 | A post whose stripped text fits in 150 characters is shown whole, with every non-whitespace character the markup stages left. |
| Excerpt.TopFour | src/components/supabase-blog-posts.tsx:75 | At most four posts are shown, the first ones in fetched order; none when the fetch gave none. |
| Excerpt.SkipTag | src/components/blog-posts.tsx:67 | `[^>]*>?` consumes a prefix and leaves a suffix of the text. |
| Excerpt.StripTags | src/components/blog-posts.tsx:67 | Tag-stripped text has no '<' and is no longer than the input. |
| Excerpt.StripTagsIsScan | src/components/blog-posts.tsx:67 | The regular-expression deletion equals an independent two-state scanner. |
| Excerpt.StripTagsWithoutTags | src/components/blog-posts.tsx:67 | Text without '<' is unchanged. |
| Excerpt.StripTagsIdempotent | src/components/blog-posts.tsx:67 | Stripping twice is stripping once. |
| Excerpt.StripTagsKeepsOrder | src/components/blog-posts.tsx:67 | The kept characters are a subsequence of the input. |
| Excerpt.FeedPreview | src/components/blog-posts.tsx:67 | A feed card shows exactly the first min(len, 150) characters of the tag-stripped content, then "..."; that part holds no '<'. |
| Excerpt.FeedPreviewOfPlainText | src/components/blog-posts.tsx:67 | Content of at most 150 characters without '<' is shown whole, followed by "...". |
| Excerpt.FeedUser | src/components/blog-posts.tsx:8 | The feed user defaults to 'medium'. |
| Inbox.GroupComments | src/app/admin/comments/page.tsx:42-43 | Every fetched comment lands in exactly one list, with the matching flag. The counts add up to the number fetched. A null fetch gives two empty lists. |
| Inbox.CommentGroupsKeepOrder | src/app/admin/comments/page.tsx:39-43 | Both lists are subsequences of the fetch and keep its newest-first order. |
| Inbox.PendingActions | src/app/admin/comments/page.tsx:87-103 | A pending list offers exactly its rows' Approve and Delete actions. |
| Inbox.ApprovedActions | src/app/admin/comments/page.tsx:142-149 | An approved list offers exactly its rows' Delete actions. |
| Inbox.CommentActionsOffered | src/app/admin/comments/page.tsx:87-149 | Approve is offered for an id exactly when a pending comment has it; Delete exactly when any fetched comment has it. |
| Inbox.GroupMessages | src/app/admin/messages/page.tsx:33-34 | Every fetched message lands in exactly one list, with the matching flag. The counts add up to the number fetched. A null fetch gives two empty lists. |
| Inbox.MessageGroupsKeepOrder | src/app/admin/messages/page.tsx:30-34 | Both lists are subsequences of the fetch and keep its newest-first order. |
| Inbox.UnreadActions | src/app/admin/messages/page.tsx:70-86 | An unread list offers exactly its rows' Mark-as-Read and Delete actions. |
| Inbox.ReadActions | src/app/admin/messages/page.tsx:117-124 | A read list offers exactly its rows' Delete actions. |
| Inbox.MessageActionsOffered | src/app/admin/messages/page.tsx:70-124 | Mark as Read is offered exactly for unread messages; Delete for every fetched one. |
| Seqs.Filter | src/app/admin/comments/page.tsx:42-43 | `filter` yields only elements that pass and are in the input, and every passing element of the input appears. |
| Seqs.FilterIsSubsequence | src/app/admin/comments/page.tsx:42-43 | The filtered list is a subsequence of the input: the kept elements stay in input order. |
| Seqs.FilterPartitionLength | src/app/admin/comments/page.tsx:57 | A filter and its complement together have as many elements as the input. |
| Seqs.FilterKeepsOrder | src/app/admin/messages/page.tsx:30-34 | Filtering an ordered list keeps it ordered. |
| Policies.Template | src/lib/supabase-policies.ts:13-99 | A policy is named bucket + the kind's suffix. Its definition creates that policy for the kind's command and restricts rows to `bucket_id = '<bucket>'`. The definition requires `auth.role() = 'authenticated'` for insert, update and delete. The public-folder kinds require the lower-cased first folder to be 'public', and the JPG kind also requires extension 'jpg'. |
| Policies.ConcatContains | src/lib/supabase-policies.ts:19-24 | Each piece of a definition occurs in it. |
| Policies.PolicyNamesDistinct | src/lib/supabase-policies.ts:16-87 | For one bucket, the six policy names differ. |
| Policies.PolicyNamesSeparateBuckets | src/lib/supabase-policies.ts:16-87 | Policies of one kind for different buckets have different names. |
| Policies.TemplatesForBucket | src/lib/supabase-policies.ts:129-137 | The listing has exactly the six template keys, each mapped to that template's definition for the bucket. |
| Policies.ListingKeysAreKinds | src/lib/supabase-policies.ts:129-137 | Every listing key names one kind, and no two kinds share a key. |
| Policies.ApplyPolicyToBucket | src/lib/supabase-policies.ts:102-126 | Applying a kind succeeds with the policy name bucket + suffix, and SQL restricted to the bucket. |
| Policies.ApplyAgreesWithListing | src/lib/supabase-policies.ts:114-118 | The SQL applied for a kind is the definition the listing shows under its key. |
| ObjectPath.Extension | src/components/admin/image-upload.tsx:45 | The extension is the text after the last '.', or the whole name if there is none. It holds no '.'. |
| ObjectPath.LastPieceFacts | src/app/api/upload/route.ts:78 | The last piece of a split ends the text, after the last separator when there is one. |
| ObjectPath.FileName | src/components/admin/image-upload.tsx:46 | A generated name starts with the stem and '_' and ends with "." + the extension. |
| ObjectPath.Path | src/components/admin/image-upload.tsx:47 | An empty folder gives the bare name; otherwise "folder/" followed by the name. |
| ObjectPath.PathInjective | src/app/api/upload/route.ts:80 | Within a folder, different names give different paths. |
| ObjectPath.FolderMarker | src/lib/supabase-storage.ts:60 | The marker is "folder/.folder". |
| ObjectPath.UploadMissesMarker | src/app/api/upload/route.ts:63-80 | A generated upload path never equals the folder's marker path. |
| Storage.CreateBucket | src/lib/supabase-storage.ts:30-32 | Creation succeeds exactly when there is no fault and no bucket of that name. It appends the bucket with the given visibility; on failure nothing changes. An injected error is the one reported. |
| Storage.CreateBucketKeepsValid | src/lib/supabase-storage.ts:28-40 | Creation keeps bucket names unique and every object in an existing bucket. |
| Storage.Upload | src/lib/supabase-storage.ts:81-86 | An upload succeeds exactly when there is no fault, the bucket exists, and upsert is set or the key is new. It stores the content under the key; on failure nothing changes. An injected error is the one reported. |
| Storage.UploadKeepsValid | src/lib/supabase-storage.ts:81-86 | Uploads keep the store valid. |
| Storage.PublicUrl | src/lib/supabase-storage.ts:94-96 | The public URL is the bucket's public prefix followed by exactly the path. |
| Storage.PublicUrlInjective | src/lib/supabase-storage.ts:94-98 | Within one bucket, different paths give different public URLs. |
| Storage.EnsureBucketExists | src/lib/supabase-storage.ts:13-50 | A list error fails and changes nothing. The call succeeds exactly when the bucket existed or its creation did not fail. On success the bucket exists. The store changes only by appending the bucket, with `public = isPublic`, which defaults to true. |
| Storage.EnsureBucketIdempotent | src/lib/supabase-storage.ts:26-45 | A second call after a successful one creates nothing and succeeds. |
| Storage.EnsureBucketKeepsValid | src/lib/supabase-storage.ts:13-50 | The store stays valid. |
| Storage.MentionsAlreadyExists | src/lib/supabase-storage.ts:63 | The store's own "already exists" message is recognised. |
| Storage.EnsureFolderExists | src/lib/supabase-storage.ts:53-73 | Buckets never change, and only the marker may be written. An existing marker means no change. Success means the marker is stored or the error mentioned "The resource already exists". Without a fault, success is exactly "the bucket exists". When the store reports an error, the call succeeds exactly when the message includes "The resource already exists"; any other error is a failure carrying that message. |
| Storage.EnsureFolderIdempotent | src/lib/supabase-storage.ts:58-68 | A second call after a successful one succeeds and changes nothing. |
| Storage.UploadFile | src/lib/supabase-storage.ts:76-103 | Success exactly when there is no fault and the bucket exists; then the object holds the content and the URL is that of exactly this path. On failure `publicUrl` is null and nothing changes. |
| Storage.UploadFileOverwrites | src/lib/supabase-storage.ts:83-86 | With upsert, uploading twice to one path leaves the second content. |
| UploadRoute.MarkFolder | src/app/api/upload/route.ts:63-75 | The marker is written only for a non-empty folder, its error is ignored, and no other object or bucket changes: the objects are unchanged or have the marker set to "". |
| UploadRoute.StoreFile | src/app/api/upload/route.ts:63-106 | With the bucket in place, the reply is 200 exactly when the file entry is a file and the upload did not fail. Then the body carries the public URL of the stored path. A text entry gives 500 "Server error: …"; an upload error gives 500 "Error uploading file: …". The objects afterwards are the earlier ones with, at most, the folder marker set to "" (only with a folder) and the file's key set to its content; every other object is kept. |
| UploadRoute.Post | src/app/api/upload/route.ts:5-113 | A missing `file` entry, an empty text `file` entry, or a missing or empty bucket gives 400 "File and bucket are required" before any storage call. A list error gives 500 "Error listing buckets: …" with the store unchanged. A failed creation of an absent bucket gives 500 "Error creating bucket: …" with the store unchanged. The reply is 200 exactly when the fields are given, the bucket is in place or created, the entry is a file and the upload succeeds. The 200 body is the public URL of the object now holding the content. A text entry gives 500 "Server error: …", an upload error 500 "Error uploading file: …". Every reply is 200, 400 or 500. Whatever the outcome, the objects are the earlier ones with, at most, the folder marker set to "" and the file's key set to its content. |
| UploadRoute.BucketCreatedOnlyIfAbsent | src/app/api/upload/route.ts:48-60 | A bucket is added, public, only when none of that name was listed. |
| UploadRoute.MarkerOnlyWithFolder | src/app/api/upload/route.ts:63-67 | Without a folder, only the uploaded file's object can change. |
| UploadRoute.FolderMarkerWritten | src/app/api/upload/route.ts:63-106 | With a folder and no faults, the marker is stored and the reply is 200. |
| UploadRoute.AnyoneCanUpload | src/app/api/upload/route.ts:5-106 | No session is consulted. With no faults, any form with a file and a bucket gets 200 and the public URL of the stored object, whose path ends in "." + the extension. |
| UploadRoute.SecondUploadOverwrites | src/app/api/upload/route.ts:86-92 | The upload is an upsert: the second file sent to a path wins. |
| UploadRoute.TextFileFailsAfterProvisioning | src/app/api/upload/route.ts:12-80 | A non-empty text value as `file` passes the 400 check. It fails with 500 only after the bucket was created. |
| UploadDiagnostic.Diagnose | src/app/api/upload/test/route.ts:5-105 | An auth error gives 401 "Authentication error: …". A list error gives 500 "Error listing buckets: …". A missing 'images' bucket whose creation fails gives 500 "Error creating bucket: …" and leaves the store as it was. The reply is 200 exactly when auth and listing succeed and 'images' exists or is created. A 200 reply is `partial` exactly when the test upload fails, and then it carries the RLS message and the upload error's message. Success reports the user and the listed bucket names, and the only object change is the test file at 'test/api-test.txt'. A `partial` reply leaves every object as it was. |
| UploadDiagnostic.AnonymousNotRejected | src/app/api/upload/test/route.ts:26-33 | Without an auth error, a missing user is not rejected; success reports user null. |
| UploadDiagnostic.ImagesBucketCreatedOnlyIfAbsent | src/app/api/upload/test/route.ts:47-61 | 'images' is added, public, only when not listed; success leaves the test file stored. |
| UploadDiagnostic.ReportedBucketsPrecedeCreation | src/app/api/upload/test/route.ts:86-91 | The reported bucket names are those listed before 'images' was created. |
| ImageUpload.MakeProps | src/components/admin/image-upload.tsx:20-25 | `folder` defaults to the empty text. |
| ImageUpload.InitialState | src/components/admin/image-upload.tsx:26-28 | Not uploading, no error, and the default image as preview unless it is empty. |
| ImageUpload.ErrorText | src/components/admin/image-upload.tsx:69 | The error shown is the message, or "Error uploading file" when it is empty. |
| ImageUpload.Uploading | src/components/admin/image-upload.tsx:36-42 | While uploading: error cleared, spinner on, local preview shown. |
| ImageUpload.HandleFileChange | src/components/admin/image-upload.tsx:31-74 | An empty selection changes nothing. Otherwise the spinner ends off, and a URL is reported exactly when no error is shown. |
| ImageUpload.UploadErrorReverts | src/components/admin/image-upload.tsx:60-70 | On an upload error, the error shown is the store's message, or "Error uploading file" when that is empty; the preview reverts to the default, nothing is reported and nothing stored. |
| ImageUpload.UploadSuccessReports | src/components/admin/image-upload.tsx:56-67 | On success, the public URL of exactly the stored object is reported, with the local preview kept and no error; the store differs only in that object. |
| ImageUpload.WidgetNeverOverwrites | src/components/admin/image-upload.tsx:56-58 | Without upsert, an object already stored is never replaced. |
| ImageUpload.ClearImage | src/components/admin/image-upload.tsx:76-82 | The preview is removed, the empty text is reported, nothing else changes. |
| Forms.GenerateSlugField | src/app/admin/blog/new/page.tsx:43-52 | Only the slug changes. An empty title keeps it; otherwise it becomes the title's slug. |
| Forms.SetThumbnail | src/app/admin/blog/new/page.tsx:39-41 | The uploaded URL becomes the thumbnail and nothing else changes. |
| Forms.PostData | src/app/admin/blog/new/page.tsx:66-81 | The fields are as typed and the categories parsed. `published_at` is non-null exactly when published, and is then the submission time. |
| Forms.PostCategoriesWellFormed | src/app/admin/blog/new/page.tsx:66-69 | The categories sent are trimmed and non-empty, at most commas + 1. |
| Forms.AfterInsert | src/app/admin/blog/new/page.tsx:90-100 | An insert error shows its message, or the fallback when it is empty, and stays on the page. Success goes to the list page. Either way, submitting ends. |
| Forms.SubmitBlogPost | src/app/admin/blog/new/page.tsx:90-100 | Success goes to "/admin/blog"; an empty error message shows the blog fallback text. |
| Forms.HandleProjectImageUpload | src/app/admin/projects/new/page.tsx:34-37 | The preview and the form's image both take the uploaded URL. |
| Forms.ProjectRecord | src/app/admin/projects/new/page.tsx:59-66 | The inserted project copies title, description, full description and image verbatim, with the tags parsed. |
| Forms.BlankTagsSendNone | src/app/admin/projects/new/page.tsx:51-54 | Tags of only commas and whitespace send an empty list. |
| Forms.SubmitProject | src/app/admin/projects/new/page.tsx:68-78 | Success goes to "/admin/projects"; an empty error message shows the project fallback text. |
| Forms.UploadedImageReachesProject | src/app/admin/projects/new/page.tsx:34-66 | A successful widget upload puts its public URL in the project record; clearing the widget empties it again. |
| Forms.UploadedImageReachesPost | src/app/admin/blog/new/page.tsx:39-81 | A successful widget upload puts its public URL in the post's thumbnail. |

## Left out

- Supabase client construction, cookie adapters, session resolution and the queries themselves are foreign calls. Their results are inputs: a user or none, fetched rows or null, a failure flag, an error message.
- Exceptions thrown by the storage client are not modelled. These would reach the `catch` branches ("Server error: …", "Storage access error: …", `success: false` from the helpers). Only errors the client returns as values are modelled. The one thrown error the handler's own code raises is modelled: a text `file` entry.
- UploadRoute.Post: the `bucket` and `folder` entries are modelled as text only; a file sent in those entries is not.
- Policies.ApplyPolicyToBucket: the key is one of the six kinds, as the parameter's type says. The `catch` branch for a key outside the type is not modelled. That branch also covers inherited object keys such as "toString", which resolve to a function.
- Storage.PublicUrl: `encodeURI` of the path is not modelled. The storage endpoint `url` is a field of the store.
- Storage.Upload: the store's duplicate and missing-bucket messages are constants of the model. The real service's wording beyond "The resource already exists" is not known here.
- Excerpt.StripMarkdown: the markdown stages before the whitespace stages (headers, emphasis, links, code, quotes, list markers) are a function parameter. Only the final `\n\s*\n`, `\s+` and `trim` stages are modelled exactly.
- Text.Lower: `toLowerCase` maps only ASCII letters; Unicode case mapping is not modelled.
- Excerpt.Preview / Excerpt.PostPreview / Excerpt.FeedPreview: lengths count Unicode characters, while `substring(0, 150)` counts UTF-16 code units. A text with characters outside the Basic Multilingual Plane is therefore cut later in the model than on the site, and the site can end a preview on half of a surrogate pair.
- Random file-name stems, `Date.now()` and `new Date().toISOString()` are inputs. `URL.createObjectURL` addresses are inputs too.
- Rendering, dates formatted for display, the comment/message action route handlers and the admin API routes' 401/403 checks are outside this model. The dashboard counts, list pages and query hooks are also outside it.
- Rows: only the Profile Update shape is modelled; the other tables' Update shapes are left out, because the site's forms never send them. Storing a project or blog-post Insert is not modelled, because its column defaults are not part of the schema types.
- The Medium RSS fetch, the Bun demo server and the storage admin pages are out of scope.

=== FILE: comma_list.dfy ===
/**
 * The comma-list parsing of the admin forms: categories of a new blog post
 * and tags of a new project are `s.split(',').map(trim).filter(nonEmpty)`.
 */
module CommaList {
  import opened Text
  import opened Seqs

  function TrimAll(parts: seq<string>): (r: seq<string>)
    ensures |r| == |parts|
    ensures forall i :: 0 <= i < |parts| ==> r[i] == Trim(parts[i])
  {
    if parts == [] then [] else [Trim(parts[0])] + TrimAll(parts[1..])
  }

  predicate NonEmpty(s: string) {
    |s| > 0
  }

  /** The trimmed comma-separated pieces of `s`. */
  function Pieces(s: string): seq<string> {
    TrimAll(Split(s, ','))
  }

  /** Every item is trimmed and non-empty, there is at most one item per
      comma-separated piece, and no non-blank piece is lost. */
  function Parse(s: string): (items: seq<string>)
    ensures forall i :: 0 <= i < |items| ==> items[i] != "" && IsTrimmed(items[i])
    ensures forall i :: 0 <= i < |items| ==> ',' !in items[i]
    ensures |items| <= Count(s, ',') + 1
    ensures forall p :: p in Split(s, ',') && Trim(p) != "" ==> Trim(p) in items
  {
    PiecesWellFormed(s);
    Filter(Pieces(s), NonEmpty)
  }

  /** Every piece is trimmed and comma-free, and every piece's trim is among the pieces. */
  lemma PiecesWellFormed(s: string)
    ensures forall x :: x in Pieces(s) ==> IsTrimmed(x) && ',' !in x
    ensures forall p :: p in Split(s, ',') ==> Trim(p) in Pieces(s)
  {
    var parts := Split(s, ',');
    forall x | x in Pieces(s)
      ensures IsTrimmed(x) && ',' !in x
    {
      var j :| 0 <= j < |parts| && Pieces(s)[j] == x;
      assert x == Trim(parts[j]);
    }
    forall p | p in parts
      ensures Trim(p) in Pieces(s)
    {
      var j :| 0 <= j < |parts| && parts[j] == p;
      assert Pieces(s)[j] == Trim(p);
    }
  }

  /** The items keep the order of the pieces they come from. */
  lemma ParseKeepsOrder(s: string)
    ensures IsSubsequence(Parse(s), Pieces(s))
  {
    FilterIsSubsequence(Pieces(s), NonEmpty);
  }

  /**
   * Joining well-formed items with commas and parsing the result gives the
   * same items back, each one as often as it was joined and in order.
   */
  lemma ParseJoinRoundTrip(items: seq<string>)
    requires |items| >= 1
    requires forall i :: 0 <= i < |items| ==> items[i] != "" && IsTrimmed(items[i]) && ',' !in items[i]
    ensures Parse(Join(items, ',')) == items
  {
    SplitJoin(items, ',');
    forall i | 0 <= i < |items|
      ensures TrimAll(items)[i] == items[i]
    {
      TrimUnchanged(items[i]);
    }
    assert Pieces(Join(items, ',')) == items;
    FilterAllKept(items, NonEmpty);
  }

  lemma {:induction false} SplitBlankPieces(s: string)
    requires forall i :: 0 <= i < |s| ==> s[i] == ',' || IsSpace(s[i])
    ensures forall i :: 0 <= i < |Split(s, ',')| ==> AllSpace(Split(s, ',')[i])
    decreases |s|
  {
    if s != [] {
      SplitBlankPieces(s[1..]);
    }
  }

  /** Input made only of commas and whitespace yields no items. */
  lemma BlankInputParsesEmpty(s: string)
    requires forall i :: 0 <= i < |s| ==> s[i] == ',' || IsSpace(s[i])
    ensures Parse(s) == []
  {
    var parts := Split(s, ',');
    SplitBlankPieces(s);
    forall i | 0 <= i < |parts|
      ensures TrimAll(parts)[i] == ""
    {
      TrimAllSpace(parts[i]);
    }
    FilterNoneKept(TrimAll(parts), NonEmpty);
  }
}

=== FILE: excerpt.dfy ===
/**
 * Blog-post previews on the home page: the whitespace stages that end
 * `stripMarkdown`, the 150-character preview, the first-four selection,
 * and the HTML-tag strip of the Medium feed cards.
 */
module Excerpt {
  import opened Wrappers
  import opened Seqs
  import opened Text
  import Rows

  // ---------------------------------------------------------------------
  // replace(/\n\s*\n/g, ' ')

  /** The largest index in [1, n) holding '\n', or 0 when there is none. */
  function LastNewlineBefore(s: string, n: nat): (j: nat)
    requires n <= |s|
    ensures j < n || j == 0
    ensures j > 0 ==> s[j] == '\n'
  {
    if n <= 1 then 0
    else if s[n - 1] == '\n' then n - 1
    else LastNewlineBefore(s, n - 1)
  }

  /**
   * `replace(/\n\s*\n/g, ' ')`: from a '\n', the greedy `\s*` reaches the
   * last '\n' of the same whitespace run, and that whole stretch becomes
   * one space; a '\n' with no later '\n' in its run is left as it is.
   */
  function BlankLines(s: string): (r: string)
    ensures |r| <= |s|
    ensures r != [] ==> (IsSpace(r[0]) <==> IsSpace(s[0]))
    ensures r != [] && !IsSpace(s[0]) ==> r[0] == s[0]
    ensures |r| == 0 <==> |s| == 0
    decreases |s|
  {
    if s == [] then []
    else
      var j := LastNewlineBefore(s, SpaceRun(s));
      if s[0] == '\n' && j > 0 then " " + BlankLines(s[j + 1..])
      else [s[0]] + BlankLines(s[1..])
  }

  lemma {:induction false} BlankLinesWithoutNewline(s: string)
    requires '\n' !in s
    ensures BlankLines(s) == s
    decreases |s|
  {
    if s != [] {
      BlankLinesWithoutNewline(s[1..]);
    }
  }

  /** The blank-line stage changes nothing that the following `\s+` collapse keeps. */
  lemma {:induction false} BlankLinesAbsorbed(s: string)
    ensures ReplaceRuns(BlankLines(s), ' ') == ReplaceRuns(s, ' ')
    decreases |s|, 0
  {
    if s != [] {
      var j := LastNewlineBefore(s, SpaceRun(s));
      if s[0] == '\n' && j > 0 {
        var rest := BlankLines(s[j + 1..]);
        BlankLinesAbsorbedAfterSpace(s[j + 1..]);
        TrimStartSkip(s, j + 1);
        TrimStartSkip(" " + rest, 1);
        assert (" " + rest)[1..] == rest;
      } else if IsSpace(s[0]) {
        var rest := BlankLines(s[1..]);
        BlankLinesAbsorbedAfterSpace(s[1..]);
        TrimStartSkip(s, 1);
        TrimStartSkip([s[0]] + rest, 1);
        assert ([s[0]] + rest)[1..] == rest;
      } else {
        BlankLinesAbsorbed(s[1..]);
      }
    }
  }

  lemma {:induction false} BlankLinesAbsorbedAfterSpace(s: string)
    ensures ReplaceRuns(TrimStart(BlankLines(s)), ' ') == ReplaceRuns(TrimStart(s), ' ')
    decreases |s|, 1
  {
    if s != [] {
      var j := LastNewlineBefore(s, SpaceRun(s));
      if s[0] == '\n' && j > 0 {
        var rest := BlankLines(s[j + 1..]);
        assert BlankLines(s) == " " + rest;
        BlankLinesAbsorbedAfterSpace(s[j + 1..]);
        TrimStartSkip(s, j + 1);
        TrimStartSkip(" " + rest, 1);
        assert (" " + rest)[1..] == rest;
      } else if IsSpace(s[0]) {
        var rest := BlankLines(s[1..]);
        assert BlankLines(s) == [s[0]] + rest;
        BlankLinesAbsorbedAfterSpace(s[1..]);
        TrimStartSkip(s, 1);
        TrimStartSkip([s[0]] + rest, 1);
        assert ([s[0]] + rest)[1..] == rest;
      } else {
        BlankLinesAbsorbed(s);
      }
    }
  }

  // ---------------------------------------------------------------------
  // stripMarkdown

  /**
   * The whitespace stages that end `stripMarkdown`: blank lines to a space,
   * every whitespace run to one space, then `trim`.
   */
  function NormalizeSpace(s: string): (r: string)
    ensures IsTrimmed(r)
    ensures forall i :: 0 <= i < |r| && IsSpace(r[i]) ==> r[i] == ' '
    ensures NoDoubled(r, ' ')
  {
    var collapsed := ReplaceRuns(BlankLines(s), ' ');
    ReplaceRunsNoDoubled(BlankLines(s), ' ');
    var r := Trim(collapsed);
    assert forall i :: 0 <= i < |r| ==> r[i] == collapsed[SpaceRun(collapsed) + i];
    r
  }

  /** The blank-line stage is subsumed by the run collapse that follows it. */
  lemma BlankLineStageRedundant(s: string)
    ensures NormalizeSpace(s) == Trim(ReplaceRuns(s, ' '))
  {
    BlankLinesAbsorbed(s);
  }

  /** Normalising normalised text changes nothing. */
  lemma NormalizeSpaceIdempotent(s: string)
    ensures NormalizeSpace(NormalizeSpace(s)) == NormalizeSpace(s)
  {
    var t := NormalizeSpace(s);
    BlankLinesWithoutNewline(t);
    ReplaceRunsFixpoint(t);
    TrimUnchanged(t);
  }

  /**
   * A whitespace run between two words, however long and whatever mix of
   * spaces, tabs and newlines it holds, becomes exactly one ' '.
   */
  lemma NormalizeSpaceJoinsWords(u: string, w: string, v: string)
    requires u != [] && forall i :: 0 <= i < |u| ==> !IsSpace(u[i])
    requires w != [] && AllSpace(w)
    requires v != [] && forall i :: 0 <= i < |v| ==> !IsSpace(v[i])
    ensures NormalizeSpace(u + w + v) == u + " " + v
  {
    BlankLineStageRedundant(u + w + v);
    ReplaceRunsAtRun(u, w, v, ' ');
    ReplaceRunsNoSpace(u, ' ');
    ReplaceRunsNoSpace(v, ' ');
    var r := u + " " + v;
    assert r[0] == u[0] && r[|r| - 1] == v[|v| - 1];
    TrimUnchanged(r);
  }

  /** Normalising only rewrites whitespace: every other character survives, in order. */
  lemma NormalizeSpaceKeepsWords(s: string)
    ensures Filter(NormalizeSpace(s), IsNotSpace) == Filter(s, IsNotSpace)
  {
    BlankLineStageRedundant(s);
    TrimKeepsWords(ReplaceRuns(s, ' '));
    ReplaceRunsKeepsWords(s, ' ');
  }

  /**
   * `stripMarkdown`. The markup stages before the whitespace stages
   * (headers, emphasis, links, code, quotes, list markers) are given as
   * `markup`; the whitespace stages are modelled exactly.
   */
  function StripMarkdown(markdown: string, markup: string -> string): (r: string)
    ensures IsTrimmed(r) && NoDoubled(r, ' ')
    ensures forall i :: 0 <= i < |r| && IsSpace(r[i]) ==> r[i] == ' '
  {
    NormalizeSpace(markup(markdown))
  }

  /** The non-whitespace characters of `stripMarkdown`'s output are those the markup stages leave. */
  lemma StripMarkdownKeepsWords(markdown: string, markup: string -> string)
    ensures Filter(StripMarkdown(markdown, markup), IsNotSpace) == Filter(markup(markdown), IsNotSpace)
  {
    NormalizeSpaceKeepsWords(markup(markdown));
  }

  // ---------------------------------------------------------------------
  // previews

  const PreviewLength := 150
  const Ellipsis := "..."

  /** How many characters of a text of length `n` a preview keeps. */
  function CutLength(n: nat): (k: nat)
    ensures k <= n && k <= PreviewLength
    ensures k == n || k == PreviewLength
  {
    if n < PreviewLength then n else PreviewLength
  }

  /** `text.substring(0, 150)` followed by "...". */
  function Preview(text: string): (r: string)
    ensures |r| == CutLength(|text|) + |Ellipsis|
    ensures EndsWith(r, Ellipsis)
    ensures StartsWith(text, r[..|r| - |Ellipsis|])
  {
    var cut := CutLength(|text|);
    var r := text[..cut] + Ellipsis;
    assert r[..|r| - |Ellipsis|] == text[..cut];
    r
  }

  /** `post.excerpt || post.content`: the excerpt unless it is null or empty. */
  function PreviewSource(post: Rows.BlogPost): (text: string)
    ensures post.excerpt.Some? && post.excerpt.value != "" ==> text == post.excerpt.value
    ensures post.excerpt.None? || post.excerpt.value == "" ==> text == post.content
  {
    if post.excerpt.Some? && post.excerpt.value != "" then post.excerpt.value else post.content
  }

  /**
   * The preview of a post card: the excerpt when it is non-empty (neither
   * null nor ""), otherwise the content, stripped of markdown and cut.
   */
  function PostPreview(post: Rows.BlogPost, markup: string -> string): (r: string)
    ensures var s := StripMarkdown(PreviewSource(post), markup);
            |r| == CutLength(|s|) + |Ellipsis| && EndsWith(r, Ellipsis)
            && StartsWith(s, r[..|r| - |Ellipsis|])
  {
    Preview(StripMarkdown(PreviewSource(post), markup))
  }

  /**
   * A post whose stripped text fits the preview shows all of it, and so
   * every non-whitespace character the markup stages left.
   */
  lemma ShortPostPreviewKeepsWords(post: Rows.BlogPost, markup: string -> string)
    requires |StripMarkdown(PreviewSource(post), markup)| <= PreviewLength
    ensures var r := PostPreview(post, markup);
            r == StripMarkdown(PreviewSource(post), markup) + Ellipsis
            && Filter(r[..|r| - |Ellipsis|], IsNotSpace) == Filter(markup(PreviewSource(post)), IsNotSpace)
  {
    var s := StripMarkdown(PreviewSource(post), markup);
    var r := PostPreview(post, markup);
    assert r[..|r| - |Ellipsis|] == s;
    assert r == r[..|r| - |Ellipsis|] + r[|r| - |Ellipsis|..];
    StripMarkdownKeepsWords(PreviewSource(post), markup);
  }

  /** `posts?.slice(0, 4)`: the first four posts in fetched order; nothing when the fetch gave none. */
  function TopFour<T>(posts: Option<seq<T>>): (shown: seq<T>)
    ensures |shown| <= 4
    ensures posts.None? ==> shown == []
    ensures posts.Some? ==> |shown| == (if |posts.value| < 4 then |posts.value| else 4)
    ensures posts.Some? ==> shown == posts.value[..|shown|]
  {
    match posts
    case None => []
    case Some(ps) => if |ps| < 4 then ps else ps[..4]
  }

  // ---------------------------------------------------------------------
  // replace(/<[^>]*>?/gm, '')

  /** What `[^>]*>?` leaves: everything after the first '>', or nothing. */
  function SkipTag(s: string): (r: string)
    ensures |r| <= |s| && r == s[|s| - |r|..]
  {
    if s == [] then []
    else if s[0] == '>' then s[1..]
    else SkipTag(s[1..])
  }

  /**
   * `replace(/<[^>]*>?/gm, '')`: each '<' starts a span that runs to the
   * next '>' inclusive, or to the end of the text; spans are deleted.
   */
  function StripTags(s: string): (r: string)
    ensures '<' !in r
    ensures |r| <= |s|
    decreases |s|
  {
    if s == [] then []
    else if s[0] == '<' then StripTags(SkipTag(s[1..]))
    else [s[0]] + StripTags(s[1..])
  }

  /**
   * An independent reading of the same deletion as a two-state scanner:
   * outside a tag, '<' enters one and anything else is kept; inside, every
   * character is dropped and '>' leaves.
   */
  function ScanTags(s: string, inTag: bool): string {
    if s == [] then []
    else if inTag then ScanTags(s[1..], s[0] != '>')
    else if s[0] == '<' then ScanTags(s[1..], true)
    else [s[0]] + ScanTags(s[1..], false)
  }

  lemma {:induction false} ScanInsideTag(s: string)
    ensures ScanTags(s, true) == ScanTags(SkipTag(s), false)
    decreases |s|
  {
    if s != [] && s[0] != '>' {
      ScanInsideTag(s[1..]);
    }
  }

  /** The regular-expression replacement and the scanner agree on every text. */
  lemma {:induction false} StripTagsIsScan(s: string)
    ensures StripTags(s) == ScanTags(s, false)
    decreases |s|
  {
    if s != [] {
      if s[0] == '<' {
        ScanInsideTag(s[1..]);
        StripTagsIsScan(SkipTag(s[1..]));
      } else {
        StripTagsIsScan(s[1..]);
      }
    }
  }

  /** Text without '<' is left as it is. */
  lemma {:induction false} StripTagsWithoutTags(s: string)
    requires '<' !in s
    ensures StripTags(s) == s
    decreases |s|
  {
    if s != [] {
      StripTagsWithoutTags(s[1..]);
    }
  }

  lemma StripTagsIdempotent(s: string)
    ensures StripTags(StripTags(s)) == StripTags(s)
  {
    StripTagsWithoutTags(StripTags(s));
  }

  /** The kept characters appear in the original text, in the same order. */
  lemma {:induction false} StripTagsKeepsOrder(s: string)
    ensures IsSubsequence(StripTags(s), s)
    decreases |s|
  {
    if s != [] {
      if s[0] == '<' {
        var rest := SkipTag(s[1..]);
        StripTagsKeepsOrder(rest);
        SubsequenceOfSuffix(StripTags(rest), s, |s| - |rest|);
      } else {
        StripTagsKeepsOrder(s[1..]);
      }
    }
  }

  lemma {:induction false} SubsequenceOfSuffix<T>(a: seq<T>, b: seq<T>, k: nat)
    requires k <= |b| && IsSubsequence(a, b[k..])
    ensures IsSubsequence(a, b)
    decreases k
  {
    if k > 0 {
      assert b[1..][k - 1..] == b[k..];
      SubsequenceOfSuffix(a, b[1..], k - 1);
      SubsequenceOfTail(a, b);
    }
  }

  /** The Medium card preview: tags stripped, then cut to 150 characters plus "...". */
  function FeedPreview(content: string): (r: string)
    ensures |r| == CutLength(|StripTags(content)|) + |Ellipsis| && EndsWith(r, Ellipsis)
    ensures StartsWith(StripTags(content), r[..|r| - |Ellipsis|])
    ensures '<' !in r[..|r| - |Ellipsis|]
  {
    var text := StripTags(content);
    var r := Preview(text);
    assert forall i :: 0 <= i < |r| - |Ellipsis| ==> r[i] == text[i];
    r
  }

  /** Short content without markup is shown whole. */
  lemma FeedPreviewOfPlainText(content: string)
    requires '<' !in content && |content| <= PreviewLength
    ensures FeedPreview(content) == content + Ellipsis
  {
    StripTagsWithoutTags(content);
    var r := FeedPreview(content);
    assert r[..|r| - |Ellipsis|] == content;
    assert r == r[..|r| - |Ellipsis|] + r[|r| - |Ellipsis|..];
  }

  /** The feed component's `username` prop defaults to 'medium'. */
  const DefaultFeedUser := "medium"

  function FeedUser(username: Option<string>): (u: string)
    ensures username.None? ==> u == DefaultFeedUser
    ensures username.Some? ==> u == username.value
  {
    username.GetOr(DefaultFeedUser)
  }
}

=== FILE: forms.dfy ===
/**
 * The two admin creation forms: a new blog post (slug button, thumbnail
 * upload, categories, publish switch) and a new project (image upload,
 * tags), and the record each one sends to the database.
 */
module Forms {
  import opened Wrappers
  import opened Text
  import opened Rows
  import opened Slug
  import opened CommaList
  import opened Storage
  import opened ImageUpload

  // ---------------------------------------------------------------------
  // new blog post

  /** The blog form's fields, all text except the publish switch. */
  datatype BlogForm = BlogForm(
    title: string,
    slug: string,
    excerpt: string,
    content: string,
    categories: string,
    thumbnail: string,
    published: bool)

  const EmptyBlogForm := BlogForm("", "", "", "", "", "", false)

  /** The "Generate" button: the slug field follows the title, unless the title is empty. */
  function GenerateSlugField(form: BlogForm): (f: BlogForm)
    ensures f == form.(slug := f.slug)
    ensures form.title == "" ==> f == form
    ensures form.title != "" ==> f.slug == SlugOf(form.title)
  {
    form.(slug := GenerateSlug(form.title, form.slug))
  }

  /** `handleImageUpload` of the blog form: the reported URL becomes the thumbnail. */
  function SetThumbnail(form: BlogForm, url: string): (f: BlogForm)
    ensures f.thumbnail == url && f == form.(thumbnail := url)
  {
    form.(thumbnail := url)
  }

  /**
   * `postData`: the text fields as typed, the categories parsed, and
   * `published_at` the submission time exactly when the post is published.
   */
  function PostData(form: BlogForm, now: Timestamp): (ins: BlogPostInsert)
    ensures ins.title == form.title && ins.slug == form.slug && ins.content == form.content
    ensures ins.excerpt == Some(Some(form.excerpt)) && ins.thumbnail == Some(Some(form.thumbnail))
    ensures ins.categories == Some(Parse(form.categories))
    ensures ins.published == Some(form.published)
    ensures ins.publishedAt.Some?
    ensures ins.publishedAt.value.Some? <==> form.published
    ensures form.published ==> ins.publishedAt.value.value == now
    ensures ins.id.None? && ins.createdAt.None? && ins.updatedAt.None?
  {
    BlogPostInsert(None, form.title, form.slug, form.content, Some(Some(form.excerpt)), Some(Some(form.thumbnail)),
                   Some(Parse(form.categories)), Some(form.published),
                   Some(if form.published then Some(now) else None), None, None)
  }

  /** Every category sent is trimmed and non-empty, and no more than the commas allow. */
  lemma PostCategoriesWellFormed(form: BlogForm, now: Timestamp)
    ensures var cs := PostData(form, now).categories.value;
            |cs| <= Count(form.categories, ',') + 1
            && forall i :: 0 <= i < |cs| ==> cs[i] != "" && IsTrimmed(cs[i])
  {
  }

  /** What a submission leaves: an error to show, or a page to go to; never still submitting. */
  datatype Submitted = Submitted(submitting: bool, error: Option<string>, redirect: Option<string>)

  const BlogListPath := "/admin/blog"
  const ProjectListPath := "/admin/projects"
  const BlogSubmitFailed := "An error occurred while creating the blog post"
  const ProjectSubmitFailed := "An error occurred while creating the project"

  /**
   * `handleSubmit` after the insert: an insert error shows its message (or
   * the fallback when the message is empty) and stays on the page; success
   * goes to the list page.
   */
  function AfterInsert(insertError: Option<string>, fallback: string, listPath: string): (s: Submitted)
    requires fallback != ""
    ensures !s.submitting
    ensures s.redirect.Some? <==> insertError.None?
    ensures s.redirect.Some? ==> s.redirect.value == listPath && s.error.None?
    ensures s.error.Some? <==> insertError.Some?
    ensures s.error.Some? ==> s.error.value != ""
                              && (insertError.value != "" ==> s.error.value == insertError.value)
  {
    match insertError
    case Some(e) => Submitted(false, Some(if e != "" then e else fallback), None)
    case None => Submitted(false, None, Some(listPath))
  }

  function SubmitBlogPost(insertError: Option<string>): (s: Submitted)
    ensures s.redirect == (if insertError.None? then Some(BlogListPath) else None)
    ensures insertError == Some("") ==> s.error == Some(BlogSubmitFailed)
  {
    AfterInsert(insertError, BlogSubmitFailed, BlogListPath)
  }

  // ---------------------------------------------------------------------
  // new project

  datatype ProjectForm = ProjectForm(title: string, description: string, fullDescription: string,
                                     tags: string, image: string)

  /** The project page keeps the uploaded address twice: as the preview and as the form's image. */
  datatype ProjectPage = ProjectPage(form: ProjectForm, imageUrl: string)

  /** `handleImageUpload` of the project form: preview and image field both take the URL. */
  function HandleProjectImageUpload(page: ProjectPage, url: string): (q: ProjectPage)
    ensures q.imageUrl == url && q.form.image == url
    ensures q.form == page.form.(image := url)
  {
    ProjectPage(page.form.(image := url), url)
  }

  /**
   * The inserted project: title, description, full description and image
   * as typed, tags parsed from the comma list.
   */
  function ProjectRecord(form: ProjectForm): (ins: ProjectInsert)
    ensures ins.title == form.title && ins.description == form.description
    ensures ins.fullDescription == Some(Some(form.fullDescription)) && ins.image == form.image
    ensures ins.tags == Some(Parse(form.tags))
    ensures ins.id.None? && ins.createdAt.None? && ins.updatedAt.None?
  {
    ProjectInsert(None, form.title, form.description, Some(Some(form.fullDescription)), form.image,
                  Some(Parse(form.tags)), None, None)
  }

  /** A tag field of only commas and whitespace sends an empty tag list. */
  lemma BlankTagsSendNone(form: ProjectForm)
    requires forall i :: 0 <= i < |form.tags| ==> form.tags[i] == ',' || IsSpace(form.tags[i])
    ensures ProjectRecord(form).tags == Some([])
  {
    BlankInputParsesEmpty(form.tags);
  }

  function SubmitProject(insertError: Option<string>): (s: Submitted)
    ensures s.redirect == (if insertError.None? then Some(ProjectListPath) else None)
    ensures insertError == Some("") ==> s.error == Some(ProjectSubmitFailed)
  {
    AfterInsert(insertError, ProjectSubmitFailed, ProjectListPath)
  }

  // ---------------------------------------------------------------------
  // the widget and the forms together

  /**
   * A file the widget uploads successfully ends up, as its public URL, in
   * the project record; clearing the widget afterwards empties the image.
   */
  lemma UploadedImageReachesProject(st: Store, p: Props, w: WidgetState, f: Picked, rest: seq<Picked>,
                                    stem: string, stamp: string, page: ProjectPage)
    requires HasBucket(st.buckets, p.bucket)
    requires ObjectKey(p.bucket, WidgetPath(p, f, stem, stamp)) !in st.objects
    ensures var r := HandleFileChange(st, p, w, Some([f] + rest), stem, stamp, None);
            var page' := HandleProjectImageUpload(page, r.reported.value);
            ProjectRecord(page'.form).image == PublicUrl(st.url, p.bucket, WidgetPath(p, f, stem, stamp))
            && page'.imageUrl == ProjectRecord(page'.form).image
            && ProjectRecord(HandleProjectImageUpload(page', ClearImage(r.state).1).form).image == ""
  {
    UploadSuccessReports(st, p, w, f, rest, stem, stamp);
  }

  /** Likewise for the blog form's thumbnail. */
  lemma UploadedImageReachesPost(st: Store, p: Props, w: WidgetState, f: Picked, rest: seq<Picked>,
                                 stem: string, stamp: string, form: BlogForm, now: Timestamp)
    requires HasBucket(st.buckets, p.bucket)
    requires ObjectKey(p.bucket, WidgetPath(p, f, stem, stamp)) !in st.objects
    ensures var r := HandleFileChange(st, p, w, Some([f] + rest), stem, stamp, None);
            PostData(SetThumbnail(form, r.reported.value), now).thumbnail
              == Some(Some(PublicUrl(st.url, p.bucket, WidgetPath(p, f, stem, stamp))))
  {
    UploadSuccessReports(st, p, w, f, rest, stem, stamp);
  }
}

=== FILE: gate.dfy ===
/**
 * The access gate in front of the admin area, in its three layers:
 * the request middleware (session only), the admin layout (session plus
 * the profile's `is_admin` flag), and the login page (session only);
 * plus the client helpers `getCurrentUser` and `isAdmin`.
 */
module Gate {
  import opened Wrappers
  import opened Seqs
  import opened Text
  import opened Rows

  const LoginPath := "/login"
  const AdminPath := "/admin"

  /** What a layer does with a request. */
  datatype Outcome =
    | Pass                      // the middleware lets the request through unchanged
    | Redirect(location: string)
    | Denied                    // the "Access Denied" page
    | Render                    // the page itself (admin shell with children, or the login form)

  // ---------------------------------------------------------------------
  // middleware

  /** `config.matcher`: '/admin/:path*' is "/admin" and every path below it; and "/login". */
  predicate InMatcherScope(path: string) {
    path == AdminPath || StartsWith(path, AdminPath + "/") || path == LoginPath
  }

  /** A path the admin layout wraps. */
  predicate IsAdminPath(path: string) {
    path == AdminPath || StartsWith(path, AdminPath + "/")
  }

  /**
   * `middleware`: a visitor without a session who asks for a path starting
   * with "/admin" is sent to "/login"; a signed-in user asking for exactly
   * "/login" is sent to "/admin"; everything else passes. The profile is
   * not consulted.
   */
  function Middleware(user: Option<SessionUser>, path: string): (o: Outcome)
    ensures o.Pass? || o.Redirect?
    ensures o == Redirect(LoginPath) <==> user.None? && StartsWith(path, AdminPath)
    ensures o == Redirect(AdminPath) <==> user.Some? && path == LoginPath
    ensures o == Pass <==> !(user.None? && StartsWith(path, AdminPath)) && !(user.Some? && path == LoginPath)
  {
    if user.None? && StartsWith(path, AdminPath) then Redirect(LoginPath)
    else if user.Some? && path == LoginPath then Redirect(AdminPath)
    else Pass
  }

  /** The middleware only runs on paths its matcher selects; other requests pass untouched. */
  function GateRequest(user: Option<SessionUser>, path: string): (o: Outcome)
    ensures !InMatcherScope(path) ==> o == Pass
    ensures o.Redirect? ==> InMatcherScope(path)
  {
    if InMatcherScope(path) then Middleware(user, path) else Pass
  }

  /** The two redirects of the middleware never apply to the same request. */
  lemma MiddlewareRedirectsExclusive(user: Option<SessionUser>, path: string)
    ensures !(user.None? && StartsWith(path, AdminPath) && user.Some? && path == LoginPath)
    ensures Middleware(user, path).Redirect? ==>
              (Middleware(user, path).location == LoginPath) != (Middleware(user, path).location == AdminPath)
  {
  }

  /** Following a middleware redirect with the same session passes through. */
  lemma MiddlewareNoLoop(user: Option<SessionUser>, path: string)
    ensures Middleware(user, path).Redirect? ==>
              GateRequest(user, Middleware(user, path).location) == Pass
  {
    if Middleware(user, path) == Redirect(LoginPath) {
      assert !StartsWith(LoginPath, AdminPath) by {
        assert LoginPath[..|AdminPath|] != AdminPath by { assert LoginPath[1] != AdminPath[1]; }
      }
    }
  }

  /**
   * Inside the matcher's scope the middleware's plain prefix test on
   * "/admin" selects exactly the admin paths.
   */
  lemma PrefixTestMatchesScope(path: string)
    requires InMatcherScope(path)
    ensures StartsWith(path, AdminPath) <==> IsAdminPath(path)
  {
    if path == LoginPath {
      assert LoginPath[1] != AdminPath[1];
    }
    if StartsWith(path, AdminPath + "/") {
      assert path[..|AdminPath|] == (AdminPath + "/")[..|AdminPath|];
    }
  }

  // ---------------------------------------------------------------------
  // profile lookup and the admin layout

  /**
   * `from('profiles').select('*').eq('id', id).single()`: the one row with
   * that id; no row (null data) when the query fails or the number of
   * matching rows is not exactly one.
   */
  function ProfileQuery(rows: seq<Profile>, id: string, failed: bool): (p: Option<Profile>)
    ensures p.Some? ==> p.value in rows && p.value.id == id
    ensures p.Some? <==> !failed && |Filter(rows, (r: Profile) => r.id == id)| == 1
  {
    var matching := Filter(rows, (r: Profile) => r.id == id);
    if !failed && |matching| == 1 then Some(matching[0]) else None
  }

  /**
   * `AdminLayout`: no session redirects to "/login"; a session whose
   * profile is missing (fetch error or no row) or not an administrator
   * sees "Access Denied"; an administrator gets the admin shell with the
   * page inside it.
   */
  function AdminLayout(user: Option<SessionUser>, profile: Option<Profile>): (o: Outcome)
    ensures user.None? <==> o == Redirect(LoginPath)
    ensures o == Render <==> user.Some? && profile.Some? && profile.value.isAdmin
    ensures o == Denied <==> user.Some? && (profile.None? || !profile.value.isAdmin)
  {
    if user.None? then Redirect(LoginPath)
    else if profile.None? || !profile.value.isAdmin then Denied
    else Render
  }

  /** `LoginPage`: a signed-in user is sent to "/admin"; otherwise the login form renders. */
  function LoginPage(user: Option<SessionUser>): (o: Outcome)
    ensures o == Redirect(AdminPath) <==> user.Some?
    ensures o == Render <==> user.None?
  {
    if user.Some? then Redirect(AdminPath) else Render
  }

  // ---------------------------------------------------------------------
  // getCurrentUser and isAdmin

  /**
   * `{ ...session.user, ...profile }`: the keys both objects have (id and
   * email) take the profile's value; `isAdmin` exists only when a profile
   * was merged in.
   */
  datatype CurrentUser = CurrentUser(id: string, email: string, isAdmin: Option<bool>)

  function GetCurrentUser(session: Option<SessionUser>, rows: seq<Profile>, failed: bool): (u: Option<CurrentUser>)
    ensures session.None? ==> u.None?
    ensures session.Some? ==> u.Some?
    ensures session.Some? && ProfileQuery(rows, session.value.id, failed).Some? ==>
              var p := ProfileQuery(rows, session.value.id, failed).value;
              u.value == CurrentUser(p.id, p.email, Some(p.isAdmin))
    ensures session.Some? && ProfileQuery(rows, session.value.id, failed).None? ==>
              u.value == CurrentUser(session.value.id, session.value.email, None)
  {
    match session
    case None => None
    case Some(s) =>
      match ProfileQuery(rows, s.id, failed)
      case None => Some(CurrentUser(s.id, s.email, None))
      case Some(p) => Some(CurrentUser(p.id, p.email, Some(p.isAdmin)))
  }

  /** `user?.is_admin || false`. */
  function IsAdmin(session: Option<SessionUser>, rows: seq<Profile>, failed: bool): (b: bool)
    ensures session.None? ==> !b
    ensures b <==> session.Some? && ProfileQuery(rows, session.value.id, failed).Some?
                   && ProfileQuery(rows, session.value.id, failed).value.isAdmin
  {
    match GetCurrentUser(session, rows, failed)
    case None => false
    case Some(u) => u.isAdmin == Some(true)
  }

  // ---------------------------------------------------------------------
  // the layers together

  /** A request for an admin page: the middleware first, then the admin layout. */
  function AdminPageRequest(user: Option<SessionUser>, rows: seq<Profile>, failed: bool, path: string): (o: Outcome)
    requires IsAdminPath(path)
    ensures o != Pass
  {
    var m := GateRequest(user, path);
    if m.Redirect? then m
    else AdminLayout(user, if user.Some? then ProfileQuery(rows, user.value.id, failed) else None)
  }

  /** A request for the login page: the middleware first, then the page. */
  function LoginRequest(user: Option<SessionUser>): (o: Outcome)
    ensures o != Pass
  {
    var m := GateRequest(user, LoginPath);
    if m.Redirect? then m else LoginPage(user)
  }

  /** Any request the site serves through these layers. */
  function Serve(user: Option<SessionUser>, rows: seq<Profile>, failed: bool, path: string): Outcome {
    if path == LoginPath then LoginRequest(user)
    else if IsAdminPath(path) then AdminPageRequest(user, rows, failed, path)
    else GateRequest(user, path)
  }

  /**
   * The admin pages render only for a session whose profile resolves and
   * carries `is_admin`; that is exactly when `isAdmin` holds.
   */
  lemma AdminPageRendersOnlyForAdmins(user: Option<SessionUser>, rows: seq<Profile>, failed: bool, path: string)
    requires IsAdminPath(path)
    ensures AdminPageRequest(user, rows, failed, path) == Render <==> IsAdmin(user, rows, failed)
    ensures AdminPageRequest(user, rows, failed, path) == Redirect(LoginPath) <==> user.None?
  {
    PrefixTestMatchesScope(path);
  }

  /** The middleware and the layout agree on who is sent to the login page. */
  lemma MiddlewareAndLayoutAgree(user: Option<SessionUser>, profile: Option<Profile>, path: string)
    requires IsAdminPath(path)
    ensures Middleware(user, path) == Redirect(LoginPath) <==> AdminLayout(user, profile) == Redirect(LoginPath)
  {
    PrefixTestMatchesScope(path);
  }

  /** The middleware and the login page agree on who is sent to the admin area. */
  lemma MiddlewareAndLoginPageAgree(user: Option<SessionUser>)
    ensures Middleware(user, LoginPath) == LoginPage(user) || (Middleware(user, LoginPath) == Pass && LoginPage(user) == Render)
  {
  }

  /**
   * A signed-in user whose profile is not an administrator's is sent from
   * "/login" to "/admin", where the layout denies them: no loop, no access.
   */
  lemma NonAdminFromLogin(u: SessionUser, rows: seq<Profile>, failed: bool)
    requires !IsAdmin(Some(u), rows, failed)
    ensures LoginRequest(Some(u)) == Redirect(AdminPath)
    ensures AdminPageRequest(Some(u), rows, failed, AdminPath) == Denied
  {
    PrefixTestMatchesScope(AdminPath);
  }

  /** Following any redirect once, with the same session, lands on a page that does not redirect. */
  lemma {:induction false} RedirectsSettleInOneStep(user: Option<SessionUser>, rows: seq<Profile>, failed: bool, path: string)
    ensures Serve(user, rows, failed, path).Redirect? ==>
              !Serve(user, rows, failed, Serve(user, rows, failed, path).location).Redirect?
  {
    var o := Serve(user, rows, failed, path);
    if o.Redirect? {
      if path != LoginPath {
        PrefixTestMatchesScope(path);
      }
      assert o.location == LoginPath || o.location == AdminPath;
      PrefixTestMatchesScope(AdminPath);
      MiddlewareNoLoop(user, path);
      assert !StartsWith(LoginPath, AdminPath) by { assert LoginPath[1] != AdminPath[1]; }
    }
  }
}

=== FILE: image_upload.dfy ===
/**
 * The admin image-upload widget: its state (uploading flag, error text,
 * preview address), the file-change handler that uploads the picked file
 * straight to storage without upsert, and the clear button. The value the
 * widget hands to its `onUploadComplete` callback is an output.
 */
module ImageUpload {
  import opened Wrappers
  import opened Text
  import opened ObjectPath
  import opened Storage

  datatype Props = Props(bucket: string, folder: string, defaultImageUrl: Option<string>)

  /** The `folder` prop defaults to the empty text, the bucket's root. */
  function MakeProps(bucket: string, folder: Option<string>, defaultImageUrl: Option<string>): (p: Props)
    ensures folder.None? ==> p.folder == ""
    ensures folder.Some? ==> p.folder == folder.value
  {
    Props(bucket, folder.GetOr(""), defaultImageUrl)
  }

  datatype WidgetState = WidgetState(uploading: bool, error: Option<string>, preview: Option<string>)

  /** `defaultImageUrl || null`: an empty default shows no preview. */
  function InitialState(p: Props): (s: WidgetState)
    ensures !s.uploading && s.error.None?
    ensures s.preview.Some? <==> p.defaultImageUrl.Some? && p.defaultImageUrl.value != ""
    ensures s.preview.Some? ==> s.preview == p.defaultImageUrl
  {
    var preview := if p.defaultImageUrl.Some? && p.defaultImageUrl.value != "" then p.defaultImageUrl else None;
    WidgetState(false, None, preview)
  }

  /** A picked file, and the local address `URL.createObjectURL` gives it. */
  datatype Picked = Picked(name: string, content: string, objectUrl: string)

  /** The store, the widget's state, and the value passed to `onUploadComplete`, if it was called. */
  datatype Changed = Changed(store: Store, state: WidgetState, reported: Option<string>)

  const UploadFailed := "Error uploading file"

  /** `error.message || 'Error uploading file'`. */
  function ErrorText(message: string): (t: string)
    ensures t != ""
    ensures message != "" ==> t == message
    ensures message == "" ==> t == UploadFailed
  {
    if message != "" then message else UploadFailed
  }

  /** The state while the upload runs: error cleared, spinner on, local preview shown. */
  function Uploading(s: WidgetState, f: Picked): (u: WidgetState)
    ensures u.uploading && u.error.None? && u.preview == Some(f.objectUrl)
  {
    WidgetState(true, None, Some(f.objectUrl))
  }

  /** The object path the widget uploads a picked file to. */
  function WidgetPath(p: Props, f: Picked, stem: string, stamp: string): string {
    Path(p.folder, FileName(stem, stamp, Extension(f.name)))
  }

  /**
   * `handleFileChange`. An empty selection (no files, or none picked) does
   * nothing. Otherwise the first file is uploaded without upsert; on
   * success its public URL is reported, on failure the error is shown and
   * the preview goes back to the default; either way the spinner stops.
   */
  function HandleFileChange(st: Store, p: Props, s: WidgetState, files: Option<seq<Picked>>,
                            stem: string, stamp: string, fault: Option<string>): (r: Changed)
    ensures files.None? || files.value == [] ==> r == Changed(st, s, None)
    ensures files.Some? && files.value != [] ==> !r.state.uploading
    ensures r.reported.Some? <==> r.state.error.None? && files.Some? && files.value != []
  {
    match files
    case None => Changed(st, s, None)
    case Some(fs) =>
      if fs == [] then Changed(st, s, None)
      else
        var f := fs[0];
        var busy := Uploading(s, f);
        var path := WidgetPath(p, f, stem, stamp);
        var c := Upload(st, p.bucket, path, f.content, false, fault);
        match c.error
        case Some(e) => Changed(c.store, busy.(uploading := false, error := Some(ErrorText(e)), preview := p.defaultImageUrl), None)
        case None => Changed(c.store, busy.(uploading := false), Some(PublicUrl(st.url, p.bucket, path)))
  }

  /**
   * A failed upload shows the store's error message (or the fallback text
   * when it is empty), restores the default preview, reports nothing and
   * stores nothing.
   */
  lemma UploadErrorReverts(st: Store, p: Props, s: WidgetState, f: Picked, rest: seq<Picked>,
                           stem: string, stamp: string, fault: Option<string>)
    requires Upload(st, p.bucket, WidgetPath(p, f, stem, stamp), f.content, false, fault).error.Some?
    ensures var r := HandleFileChange(st, p, s, Some([f] + rest), stem, stamp, fault);
            var e := Upload(st, p.bucket, WidgetPath(p, f, stem, stamp), f.content, false, fault).error.value;
            r.store == st && r.reported.None? && r.state.error == Some(ErrorText(e)) && r.state.error.value != ""
            && r.state.preview == p.defaultImageUrl && !r.state.uploading
  {
  }

  /**
   * A successful upload reports the public URL of exactly the stored
   * object, keeps the local preview, and leaves no error; that object is
   * the only change to the store.
   */
  lemma UploadSuccessReports(st: Store, p: Props, s: WidgetState, f: Picked, rest: seq<Picked>,
                             stem: string, stamp: string)
    requires HasBucket(st.buckets, p.bucket)
    requires ObjectKey(p.bucket, WidgetPath(p, f, stem, stamp)) !in st.objects
    ensures var r := HandleFileChange(st, p, s, Some([f] + rest), stem, stamp, None);
            var path := WidgetPath(p, f, stem, stamp);
            r.reported == Some(PublicUrl(st.url, p.bucket, path))
            && ObjectKey(p.bucket, path) in r.store.objects && r.store.objects[ObjectKey(p.bucket, path)] == f.content
            && r.state == WidgetState(false, None, Some(f.objectUrl))
            && r.store == st.(objects := st.objects[ObjectKey(p.bucket, path) := f.content])
  {
  }

  /** The widget never replaces an object that is already stored. */
  lemma WidgetNeverOverwrites(st: Store, p: Props, s: WidgetState, files: Option<seq<Picked>>,
                              stem: string, stamp: string, fault: Option<string>, k: ObjectKey)
    requires k in st.objects
    ensures var r := HandleFileChange(st, p, s, files, stem, stamp, fault);
            k in r.store.objects && r.store.objects[k] == st.objects[k]
  {
  }

  /** `clearImage`: the preview is removed and the empty text is reported; nothing else changes. */
  function ClearImage(s: WidgetState): (r: (WidgetState, string))
    ensures r.0.preview.None? && r.1 == ""
    ensures r.0.uploading == s.uploading && r.0.error == s.error
  {
    (s.(preview := None), "")
  }
}

=== FILE: inbox.dfy ===
/**
 * The moderation and inbox pages: the fetched, newest-first rows are split
 * by one boolean column into two lists, and each row offers the actions
 * of its list (comments: Approve and Delete, or Delete only; messages:
 * Mark as Read and Delete, or Delete only).
 */
module Inbox {
  import opened Wrappers
  import opened Seqs
  import opened Rows

  /** `data ?? []`: a failed fetch (null data) shows two empty lists. */
  function Fetched<T>(data: Option<seq<T>>): seq<T> {
    data.GetOr([])
  }

  // ---------------------------------------------------------------------
  // comments

  predicate IsPending(c: Comment) {
    !c.approved
  }

  predicate IsApproved(c: Comment) {
    c.approved
  }

  datatype CommentGroups = CommentGroups(pending: seq<Comment>, approved: seq<Comment>)

  /**
   * `comments?.filter(c => !c.approved) || []` and its complement: every
   * fetched comment lands in exactly one list, with the right flag.
   */
  function GroupComments(data: Option<seq<Comment>>): (g: CommentGroups)
    ensures data.None? ==> g.pending == [] && g.approved == []
    ensures |g.pending| + |g.approved| == |Fetched(data)|
    ensures forall c :: c in g.pending ==> !c.approved && c in Fetched(data)
    ensures forall c :: c in g.approved ==> c.approved && c in Fetched(data)
    ensures forall c :: c in Fetched(data) ==> c in g.pending || c in g.approved
  {
    var cs := Fetched(data);
    FilterPartitionLength(cs, IsApproved, IsPending);
    CommentGroups(Filter(cs, IsPending), Filter(cs, IsApproved))
  }

  ghost predicate CommentsNewestFirst(cs: seq<Comment>) {
    Ordered(cs, (a: Comment, b: Comment) => NotAfter(b.createdAt, a.createdAt))
  }

  /** Both lists keep the `created_at` descending order of the fetch, and each is a subsequence of it. */
  lemma CommentGroupsKeepOrder(data: Option<seq<Comment>>)
    requires CommentsNewestFirst(Fetched(data))
    ensures CommentsNewestFirst(GroupComments(data).pending)
    ensures CommentsNewestFirst(GroupComments(data).approved)
    ensures IsSubsequence(GroupComments(data).pending, Fetched(data))
    ensures IsSubsequence(GroupComments(data).approved, Fetched(data))
  {
    var cs := Fetched(data);
    var before := (a: Comment, b: Comment) => NotAfter(b.createdAt, a.createdAt);
    FilterKeepsOrder(cs, IsPending, before);
    FilterKeepsOrder(cs, IsApproved, before);
    FilterIsSubsequence(cs, IsPending);
    FilterIsSubsequence(cs, IsApproved);
  }

  /** The forms a comment row offers: POST to `/api/comments/{id}/approve` or `/delete`. */
  datatype CommentAction = ApproveComment(id: int) | DeleteComment(id: int)

  function PendingRowActions(c: Comment): seq<CommentAction> {
    [ApproveComment(c.id), DeleteComment(c.id)]
  }

  function ApprovedRowActions(c: Comment): seq<CommentAction> {
    [DeleteComment(c.id)]
  }

  function PendingActions(cs: seq<Comment>): (acts: seq<CommentAction>)
    ensures forall a :: a in acts <==> exists c :: c in cs && a in PendingRowActions(c)
  {
    if cs == [] then [] else PendingRowActions(cs[0]) + PendingActions(cs[1..])
  }

  function ApprovedActions(cs: seq<Comment>): (acts: seq<CommentAction>)
    ensures forall a :: a in acts <==> exists c :: c in cs && a in ApprovedRowActions(c)
  {
    if cs == [] then [] else ApprovedRowActions(cs[0]) + ApprovedActions(cs[1..])
  }

  /** Every action button on the comments page, pending list first. */
  function CommentPageActions(data: Option<seq<Comment>>): seq<CommentAction> {
    var g := GroupComments(data);
    PendingActions(g.pending) + ApprovedActions(g.approved)
  }

  /**
   * Approve is offered for a comment id exactly when a pending comment has
   * that id; Delete exactly when some fetched comment has it.
   */
  lemma CommentActionsOffered(data: Option<seq<Comment>>, id: int)
    ensures ApproveComment(id) in CommentPageActions(data) <==>
              exists c :: c in Fetched(data) && !c.approved && c.id == id
    ensures DeleteComment(id) in CommentPageActions(data) <==>
              exists c :: c in Fetched(data) && c.id == id
  {
    var g := GroupComments(data);
    if exists c :: c in Fetched(data) && c.id == id {
      var c :| c in Fetched(data) && c.id == id;
      assert DeleteComment(id) in PendingRowActions(c) && DeleteComment(id) in ApprovedRowActions(c);
    }
    if exists c :: c in Fetched(data) && !c.approved && c.id == id {
      var c :| c in Fetched(data) && !c.approved && c.id == id;
      assert ApproveComment(id) in PendingRowActions(c);
    }
  }

  // ---------------------------------------------------------------------
  // messages

  predicate IsUnread(m: Message) {
    !m.read
  }

  predicate IsRead(m: Message) {
    m.read
  }

  datatype MessageGroups = MessageGroups(unread: seq<Message>, read: seq<Message>)

  /** `messages?.filter(m => !m.read) || []` and its complement. */
  function GroupMessages(data: Option<seq<Message>>): (g: MessageGroups)
    ensures data.None? ==> g.unread == [] && g.read == []
    ensures |g.unread| + |g.read| == |Fetched(data)|
    ensures forall m :: m in g.unread ==> !m.read && m in Fetched(data)
    ensures forall m :: m in g.read ==> m.read && m in Fetched(data)
    ensures forall m :: m in Fetched(data) ==> m in g.unread || m in g.read
  {
    var ms := Fetched(data);
    FilterPartitionLength(ms, IsRead, IsUnread);
    MessageGroups(Filter(ms, IsUnread), Filter(ms, IsRead))
  }

  ghost predicate MessagesNewestFirst(ms: seq<Message>) {
    Ordered(ms, (a: Message, b: Message) => NotAfter(b.createdAt, a.createdAt))
  }

  lemma MessageGroupsKeepOrder(data: Option<seq<Message>>)
    requires MessagesNewestFirst(Fetched(data))
    ensures MessagesNewestFirst(GroupMessages(data).unread)
    ensures MessagesNewestFirst(GroupMessages(data).read)
    ensures IsSubsequence(GroupMessages(data).unread, Fetched(data))
    ensures IsSubsequence(GroupMessages(data).read, Fetched(data))
  {
    var ms := Fetched(data);
    var before := (a: Message, b: Message) => NotAfter(b.createdAt, a.createdAt);
    FilterKeepsOrder(ms, IsUnread, before);
    FilterKeepsOrder(ms, IsRead, before);
    FilterIsSubsequence(ms, IsUnread);
    FilterIsSubsequence(ms, IsRead);
  }

  /** The forms a message row offers: POST to `/api/messages/{id}/mark-read` or `/delete`. */
  datatype MessageAction = MarkRead(id: int) | DeleteMessage(id: int)

  function UnreadRowActions(m: Message): seq<MessageAction> {
    [MarkRead(m.id), DeleteMessage(m.id)]
  }

  function ReadRowActions(m: Message): seq<MessageAction> {
    [DeleteMessage(m.id)]
  }

  function UnreadActions(ms: seq<Message>): (acts: seq<MessageAction>)
    ensures forall a :: a in acts <==> exists m :: m in ms && a in UnreadRowActions(m)
  {
    if ms == [] then [] else UnreadRowActions(ms[0]) + UnreadActions(ms[1..])
  }

  function ReadActions(ms: seq<Message>): (acts: seq<MessageAction>)
    ensures forall a :: a in acts <==> exists m :: m in ms && a in ReadRowActions(m)
  {
    if ms == [] then [] else ReadRowActions(ms[0]) + ReadActions(ms[1..])
  }

  function MessagePageActions(data: Option<seq<Message>>): seq<MessageAction> {
    var g := GroupMessages(data);
    UnreadActions(g.unread) + ReadActions(g.read)
  }

  /** Mark as Read is offered exactly for unread messages; Delete for every fetched one. */
  lemma MessageActionsOffered(data: Option<seq<Message>>, id: int)
    ensures MarkRead(id) in MessagePageActions(data) <==>
              exists m :: m in Fetched(data) && !m.read && m.id == id
    ensures DeleteMessage(id) in MessagePageActions(data) <==>
              exists m :: m in Fetched(data) && m.id == id
  {
    if exists m :: m in Fetched(data) && m.id == id {
      var m :| m in Fetched(data) && m.id == id;
      assert DeleteMessage(id) in UnreadRowActions(m) && DeleteMessage(id) in ReadRowActions(m);
    }
    if exists m :: m in Fetched(data) && !m.read && m.id == id {
      var m :| m in Fetched(data) && !m.read && m.id == id;
      assert MarkRead(id) in UnreadRowActions(m);
    }
  }
}

=== FILE: object_path.dfy ===
/**
 * How an uploaded file is named in storage, shared by the upload route and
 * the image-upload widget: the extension of the original name, a fresh
 * file name from an opaque random stem and a timestamp, and the object
 * path below an optional folder; plus the folder's marker object.
 */
module ObjectPath {
  import opened Text

  /**
   * `name.split('.').pop()`: the text after the last '.', or the whole
   * name when it has no '.'.
   */
  function Extension(name: string): (ext: string)
    ensures '.' !in ext
    ensures EndsWith(name, ext)
    ensures '.' in name ==> EndsWith(name, "." + ext)
    ensures '.' !in name ==> ext == name
  {
    var parts := Split(name, '.');
    LastPieceFacts(name, '.');
    parts[|parts| - 1]
  }

  /** The last piece of a split is what follows the last separator, or all of the text. */
  lemma LastPieceFacts(s: string, sep: char)
    ensures EndsWith(s, Split(s, sep)[|Split(s, sep)| - 1])
    ensures sep in s ==> EndsWith(s, [sep] + Split(s, sep)[|Split(s, sep)| - 1])
    ensures sep !in s ==> Split(s, sep)[|Split(s, sep)| - 1] == s
  {
    LastPieceIsSuffix(s, sep);
    if sep !in s {
      NoSeparatorSplit(s, sep);
    }
  }

  lemma LastPieceIsSuffix(s: string, sep: char)
    ensures EndsWith(s, Split(s, sep)[|Split(s, sep)| - 1])
    ensures sep in s ==> EndsWith(s, [sep] + Split(s, sep)[|Split(s, sep)| - 1])
  {
    var parts := Split(s, sep);
    JoinSplit(s, sep);
    JoinEndsWithLast(parts, sep);
    if sep in s {
      SeparatorSplits(s, sep);
    }
  }

  lemma {:induction false} JoinEndsWithLast(parts: seq<string>, sep: char)
    requires |parts| >= 1
    ensures EndsWith(Join(parts, sep), parts[|parts| - 1])
    ensures |parts| > 1 ==> EndsWith(Join(parts, sep), [sep] + parts[|parts| - 1])
    decreases |parts|
  {
    var last := parts[|parts| - 1];
    if |parts| > 1 {
      var rest := Join(parts[1..], sep);
      JoinEndsWithLast(parts[1..], sep);
      assert parts[1..][|parts| - 2] == last;
      var pre := parts[0] + [sep];
      assert Join(parts, sep) == pre + rest;
      SuffixOfSuffix(pre, rest, last);
      if |parts| == 2 {
        assert rest == last;
        assert (pre + rest)[|pre + rest| - |[sep] + last|..] == [sep] + last;
      } else {
        SuffixOfSuffix(pre, rest, [sep] + last);
      }
    } else {
      assert Join(parts, sep)[|Join(parts, sep)| - |last|..] == last;
    }
  }

  lemma SuffixOfSuffix(a: string, b: string, x: string)
    requires EndsWith(b, x)
    ensures EndsWith(a + b, x)
  {
    assert (a + b)[|a + b| - |x|..] == b[|b| - |x|..];
  }

  lemma NoSeparatorSplit(s: string, sep: char)
    requires sep !in s
    ensures |Split(s, sep)| == 1 && Split(s, sep)[0] == s
  {
    CountAbsent(s, sep);
    JoinSplit(s, sep);
  }

  lemma SeparatorSplits(s: string, sep: char)
    requires sep in s
    ensures |Split(s, sep)| > 1
  {
    CountPresent(s, sep);
  }

  lemma {:induction false} CountAbsent(s: string, c: char)
    requires c !in s
    ensures Count(s, c) == 0
  {
    if s != [] {
      CountAbsent(s[1..], c);
    }
  }

  lemma {:induction false} CountPresent(s: string, c: char)
    requires c in s
    ensures Count(s, c) > 0
  {
    if s[0] != c {
      assert c in s[1..];
      CountPresent(s[1..], c);
    }
  }

  /**
   * `${stem}_${stamp}.${ext}`, where the stem stands for the random base-36
   * text and the stamp for `Date.now()`; both are opaque inputs.
   */
  function FileName(stem: string, stamp: string, ext: string): (f: string)
    ensures EndsWith(f, "." + ext)
    ensures StartsWith(f, stem + "_")
    ensures '_' in f
  {
    var f := stem + "_" + stamp + "." + ext;
    assert f[|f| - |"." + ext|..] == "." + ext;
    assert f[..|stem + "_"|] == stem + "_";
    assert f[|stem|] == '_';
    f
  }

  /** `folder ? `${folder}/${fileName}` : fileName`: an empty folder means the bucket's root. */
  function Path(folder: string, fileName: string): (p: string)
    ensures folder == "" ==> p == fileName
    ensures folder != "" ==> StartsWith(p, folder + "/") && p[|folder| + 1..] == fileName
  {
    if folder != "" then
      var p := folder + "/" + fileName;
      assert p[..|folder + "/"|] == folder + "/";
      p
    else fileName
  }

  /** Within one folder, different file names give different paths. */
  lemma PathInjective(folder: string, a: string, b: string)
    requires Path(folder, a) == Path(folder, b)
    ensures a == b
  {
  }

  /** The empty object whose presence stands for a folder. */
  function FolderMarker(folder: string): (m: string)
    ensures StartsWith(m, folder + "/")
    ensures m[|folder| + 1..] == ".folder"
  {
    var m := folder + "/.folder";
    assert m[..|folder + "/"|] == folder + "/";
    assert m[|folder| + 1..] == ".folder";
    m
  }

  /** A generated file never lands on the folder's marker object. */
  lemma UploadMissesMarker(folder: string, stem: string, stamp: string, ext: string)
    requires folder != ""
    ensures Path(folder, FileName(stem, stamp, ext)) != FolderMarker(folder)
  {
    var f := FileName(stem, stamp, ext);
    assert f != ".folder" by {
      assert '_' in f && '_' !in ".folder";
    }
  }
}

=== FILE: policies.dfy ===
/**
 * The storage policy templates: six row-level-security policies on
 * `storage.objects`, each generated as a name and an SQL definition for a
 * bucket, listed per bucket by `getPolicyTemplatesForBucket` and picked
 * one at a time by `applyPolicyToBucket`.
 */
module Policies {
  import opened Text

  datatype PolicyKind =
    | PublicRead
    | AuthenticatedInsert
    | AuthenticatedUpdate
    | AuthenticatedDelete
    | PublicJpgInPublicFolder
    | PublicFilesInPublicFolder

  /** The template object's key for each kind. */
  function Key(k: PolicyKind): string {
    match k
    case PublicRead => "publicRead"
    case AuthenticatedInsert => "authenticatedInsert"
    case AuthenticatedUpdate => "authenticatedUpdate"
    case AuthenticatedDelete => "authenticatedDelete"
    case PublicJpgInPublicFolder => "publicJpgInPublicFolder"
    case PublicFilesInPublicFolder => "publicFilesInPublicFolder"
  }

  /** The policy name is the bucket name followed by this suffix. */
  function NameSuffix(k: PolicyKind): string {
    match k
    case PublicRead => "_public_read"
    case AuthenticatedInsert => "_authenticated_insert"
    case AuthenticatedUpdate => "_authenticated_update"
    case AuthenticatedDelete => "_authenticated_delete"
    case PublicJpgInPublicFolder => "_public_jpg_read"
    case PublicFilesInPublicFolder => "_public_files_read"
  }

  function Command(k: PolicyKind): string {
    match k
    case AuthenticatedInsert => "INSERT"
    case AuthenticatedUpdate => "UPDATE"
    case AuthenticatedDelete => "DELETE"
    case _ => "SELECT"
  }

  /** The kinds that admit only signed-in callers. */
  predicate NeedsAuthenticated(k: PolicyKind) {
    k == AuthenticatedInsert || k == AuthenticatedUpdate || k == AuthenticatedDelete
  }

  /** The kinds that admit anonymous reads below a top-level folder named 'public' (any case). */
  predicate NeedsPublicFolder(k: PolicyKind) {
    k == PublicJpgInPublicFolder || k == PublicFilesInPublicFolder
  }

  const AuthClause := "auth.role() = 'authenticated'"
  const PublicFolderClause := "LOWER(storage.foldername(name))[1] = 'public'"
  const JpgClause := "storage.extension(name) = 'jpg'"

  function BucketClause(bucket: string): string {
    "bucket_id = '" + bucket + "'"
  }

  datatype Policy = Policy(name: string, definition: string)

  /** The pieces of a definition, written one after the other. */
  function Concat(pieces: seq<string>): (r: string)
    ensures |pieces| > 0 ==> StartsWith(r, pieces[0])
  {
    if pieces == [] then [] else pieces[0] + Concat(pieces[1..])
  }

  /** Every piece occurs in the text the pieces make up. */
  lemma {:induction false} ConcatContains(pieces: seq<string>, i: nat)
    requires i < |pieces|
    ensures Contains(Concat(pieces), pieces[i])
    decreases i
  {
    if i == 0 {
      ContainsInfix([], pieces[0], Concat(pieces[1..]));
      assert [] + pieces[0] + Concat(pieces[1..]) == Concat(pieces);
    } else {
      ConcatContains(pieces[1..], i - 1);
      ContainsInSuffix(pieces[0], Concat(pieces[1..]), pieces[i]);
    }
  }

  lemma {:induction false} ContainsInSuffix(a: string, s: string, x: string)
    requires Contains(s, x)
    ensures Contains(a + s, x)
    decreases |a|
  {
    if a == [] {
      assert a + s == s;
    } else {
      ContainsInSuffix(a[1..], s, x);
      assert (a + s)[1..] == a[1..] + s;
    }
  }

  /** The first lines of every definition, up to the command. */
  function HeaderPieces(name: string, k: PolicyKind): seq<string> {
    ["\n      ", "CREATE POLICY \"" + name + "\"", " \n      ON storage.objects \n      ", "FOR " + Command(k), " \n"]
  }

  /** The condition part of every definition, line for line as the templates write it. */
  function ConditionPieces(k: PolicyKind, bucket: string): seq<string> {
    var b := BucketClause(bucket);
    match k
    case PublicRead =>
      ["      USING (", b, ");\n    "]
    case AuthenticatedInsert =>
      ["      WITH CHECK (\n        ", b, " \n        AND ", AuthClause, "\n      );\n    "]
    case AuthenticatedUpdate =>
      ["      USING (\n        ", b, " \n        AND ", AuthClause, "\n      )\n",
       "      WITH CHECK (\n        ", b, " \n        AND ", AuthClause, "\n      );\n    "]
    case AuthenticatedDelete =>
      ["      USING (\n        ", b, " \n        AND ", AuthClause, "\n      );\n    "]
    case PublicJpgInPublicFolder =>
      ["      USING (\n        ", b, "\n        AND ", JpgClause, "\n        AND ", PublicFolderClause, "\n      );\n    "]
    case PublicFilesInPublicFolder =>
      ["      USING (\n        ", b, "\n        AND ", PublicFolderClause, "\n      );\n    "]
  }

  /**
   * `POLICY_TEMPLATES[k](bucket)`. The name is the bucket plus the kind's
   * suffix; the definition creates a policy of that name for the kind's
   * command, restricts rows to the bucket, and carries the kind's extra
   * conditions.
   */
  function Template(k: PolicyKind, bucket: string): (p: Policy)
    ensures p.name == bucket + NameSuffix(k)
    ensures Contains(p.definition, "CREATE POLICY \"" + p.name + "\"")
    ensures Contains(p.definition, "FOR " + Command(k))
    ensures Contains(p.definition, BucketClause(bucket))
    ensures NeedsAuthenticated(k) ==> Contains(p.definition, AuthClause)
    ensures NeedsPublicFolder(k) ==> Contains(p.definition, PublicFolderClause)
    ensures k == PublicJpgInPublicFolder ==> Contains(p.definition, JpgClause)
  {
    var name := bucket + NameSuffix(k);
    var pieces := HeaderPieces(name, k) + ConditionPieces(k, bucket);
    PiecesInDefinition(k, bucket, name, pieces);
    Policy(name, Concat(pieces))
  }

  lemma PiecesInDefinition(k: PolicyKind, bucket: string, name: string, pieces: seq<string>)
    requires pieces == HeaderPieces(name, k) + ConditionPieces(k, bucket)
    ensures Contains(Concat(pieces), "CREATE POLICY \"" + name + "\"")
    ensures Contains(Concat(pieces), "FOR " + Command(k))
    ensures Contains(Concat(pieces), BucketClause(bucket))
    ensures NeedsAuthenticated(k) ==> Contains(Concat(pieces), AuthClause)
    ensures NeedsPublicFolder(k) ==> Contains(Concat(pieces), PublicFolderClause)
    ensures k == PublicJpgInPublicFolder ==> Contains(Concat(pieces), JpgClause)
  {
    var b := BucketClause(bucket);
    ConcatContains(pieces, 1);
    ConcatContains(pieces, 3);
    assert pieces[6] == b;
    ConcatContains(pieces, 6);
    match k
    case PublicRead =>
    case AuthenticatedInsert =>
      ConcatContains(pieces, 8);
    case AuthenticatedUpdate =>
      ConcatContains(pieces, 8);
    case AuthenticatedDelete =>
      ConcatContains(pieces, 8);
    case PublicJpgInPublicFolder =>
      ConcatContains(pieces, 8);
      ConcatContains(pieces, 10);
    case PublicFilesInPublicFolder =>
      ConcatContains(pieces, 8);
  }

  /** For one bucket, the six policies have six different names. */
  lemma PolicyNamesDistinct(k1: PolicyKind, k2: PolicyKind, bucket: string)
    requires k1 != k2
    ensures Template(k1, bucket).name != Template(k2, bucket).name
  {
    assert (bucket + NameSuffix(k1))[|bucket|..] == NameSuffix(k1);
    assert (bucket + NameSuffix(k2))[|bucket|..] == NameSuffix(k2);
    assert NameSuffix(k1) != NameSuffix(k2);
  }

  /** Policies of one kind for different buckets have different names. */
  lemma PolicyNamesSeparateBuckets(k: PolicyKind, b1: string, b2: string)
    requires b1 != b2
    ensures Template(k, b1).name != Template(k, b2).name
  {
    var n1 := Template(k, b1).name;
    var n2 := Template(k, b2).name;
    if |b1| == |b2| {
      assert n1[..|b1|] == b1 && n2[..|b2|] == b2;
    }
  }

  const TemplateKeys: set<string> := {"publicRead", "authenticatedInsert", "authenticatedUpdate",
                                      "authenticatedDelete", "publicJpgInPublicFolder", "publicFilesInPublicFolder"}

  /**
   * `getPolicyTemplatesForBucket`: exactly the six template keys, each
   * mapped to that template's definition for the bucket.
   */
  function TemplatesForBucket(bucket: string): (m: map<string, string>)
    ensures m.Keys == TemplateKeys
    ensures Key(PublicRead) in m && m[Key(PublicRead)] == Template(PublicRead, bucket).definition
    ensures Key(AuthenticatedInsert) in m && m[Key(AuthenticatedInsert)] == Template(AuthenticatedInsert, bucket).definition
    ensures Key(AuthenticatedUpdate) in m && m[Key(AuthenticatedUpdate)] == Template(AuthenticatedUpdate, bucket).definition
    ensures Key(AuthenticatedDelete) in m && m[Key(AuthenticatedDelete)] == Template(AuthenticatedDelete, bucket).definition
    ensures Key(PublicJpgInPublicFolder) in m && m[Key(PublicJpgInPublicFolder)] == Template(PublicJpgInPublicFolder, bucket).definition
    ensures Key(PublicFilesInPublicFolder) in m && m[Key(PublicFilesInPublicFolder)] == Template(PublicFilesInPublicFolder, bucket).definition
  {
    map[Key(PublicRead) := Template(PublicRead, bucket).definition,
        Key(AuthenticatedInsert) := Template(AuthenticatedInsert, bucket).definition,
        Key(AuthenticatedUpdate) := Template(AuthenticatedUpdate, bucket).definition,
        Key(AuthenticatedDelete) := Template(AuthenticatedDelete, bucket).definition,
        Key(PublicJpgInPublicFolder) := Template(PublicJpgInPublicFolder, bucket).definition,
        Key(PublicFilesInPublicFolder) := Template(PublicFilesInPublicFolder, bucket).definition]
  }

  /** Every key of the listing names one kind, and no two kinds share a key. */
  lemma ListingKeysAreKinds(bucket: string, key: string)
    ensures key in TemplatesForBucket(bucket) <==> exists k :: Key(k) == key
    ensures forall k1, k2 :: Key(k1) == Key(k2) ==> k1 == k2
  {
    if key in TemplatesForBucket(bucket) {
      assert key in TemplateKeys;
    }
  }

  /** What `applyPolicyToBucket` resolves to: the chosen template's name and SQL. */
  datatype Applied = Applied(success: bool, policyName: string, sql: string)

  function ApplyPolicyToBucket(bucket: string, k: PolicyKind): (r: Applied)
    ensures r.success
    ensures r.policyName == bucket + NameSuffix(k)
    ensures Contains(r.sql, BucketClause(bucket))
  {
    var p := Template(k, bucket);
    Applied(true, p.name, p.definition)
  }

  /** The SQL handed back for one kind is the one the per-bucket listing shows under its key. */
  lemma ApplyAgreesWithListing(bucket: string, k: PolicyKind)
    ensures Key(k) in TemplatesForBucket(bucket)
    ensures ApplyPolicyToBucket(bucket, k).sql == TemplatesForBucket(bucket)[Key(k)]
  {
    match k
    case PublicRead =>
    case AuthenticatedInsert =>
    case AuthenticatedUpdate =>
    case AuthenticatedDelete =>
    case PublicJpgInPublicFolder =>
    case PublicFilesInPublicFolder =>
  }
}

=== FILE: rows.dfy ===
/**
 * Row, Insert and Update shapes of the site's tables (profiles, projects,
 * blog_posts, comments, messages), and the identity-service user.
 *
 * A Row field that the database declares nullable is an `Option`; a key
 * that an Insert or Update shape may leave out is an `Option` too, so an
 * optional nullable key is an `Option<Option<_>>` (absent / null / value).
 */
module Rows {
  import opened Wrappers

  /** A timestamp column as the database returns it: ISO 8601 text. */
  type Timestamp = string

  /** The user the identity service resolves a session to. */
  datatype SessionUser = SessionUser(id: string, email: string)

  // ---------------------------------------------------------------------
  // profiles

  /** `is_admin` is a plain boolean in a Row: never null, never absent. */
  datatype Profile = Profile(
    id: string,
    email: string,
    fullName: Option<string>,
    avatarUrl: Option<string>,
    isAdmin: bool,
    createdAt: Timestamp,
    updatedAt: Timestamp)

  datatype ProfileInsert = ProfileInsert(
    id: string,
    email: string,
    fullName: Option<Option<string>>,
    avatarUrl: Option<Option<string>>,
    isAdmin: Option<bool>,
    createdAt: Option<Timestamp>,
    updatedAt: Option<Timestamp>)

  datatype ProfileUpdate = ProfileUpdate(
    id: Option<string>,
    email: Option<string>,
    fullName: Option<Option<string>>,
    avatarUrl: Option<Option<string>>,
    isAdmin: Option<bool>,
    createdAt: Option<Timestamp>,
    updatedAt: Option<Timestamp>)

  // ---------------------------------------------------------------------
  // projects

  datatype Project = Project(
    id: int,
    title: string,
    description: string,
    fullDescription: Option<string>,
    image: string,
    tags: seq<string>,
    createdAt: Timestamp,
    updatedAt: Timestamp)

  datatype ProjectInsert = ProjectInsert(
    id: Option<int>,
    title: string,
    description: string,
    fullDescription: Option<Option<string>>,
    image: string,
    tags: Option<seq<string>>,
    createdAt: Option<Timestamp>,
    updatedAt: Option<Timestamp>)

  // ---------------------------------------------------------------------
  // blog_posts

  datatype BlogPost = BlogPost(
    id: int,
    title: string,
    slug: string,
    content: string,
    excerpt: Option<string>,
    thumbnail: Option<string>,
    categories: seq<string>,
    published: bool,
    publishedAt: Option<Timestamp>,
    createdAt: Timestamp,
    updatedAt: Timestamp)

  datatype BlogPostInsert = BlogPostInsert(
    id: Option<int>,
    title: string,
    slug: string,
    content: string,
    excerpt: Option<Option<string>>,
    thumbnail: Option<Option<string>>,
    categories: Option<seq<string>>,
    published: Option<bool>,
    publishedAt: Option<Option<Timestamp>>,
    createdAt: Option<Timestamp>,
    updatedAt: Option<Timestamp>)

  // ---------------------------------------------------------------------
  // comments and messages

  datatype Comment = Comment(
    id: int,
    postId: int,
    name: string,
    email: string,
    content: string,
    approved: bool,
    createdAt: Timestamp)

  datatype CommentInsert = CommentInsert(
    id: Option<int>,
    postId: int,
    name: string,
    email: string,
    content: string,
    approved: Option<bool>,
    createdAt: Option<Timestamp>)

  datatype Message = Message(
    id: int,
    name: string,
    email: string,
    subject: string,
    message: string,
    read: bool,
    createdAt: Timestamp)

  datatype MessageInsert = MessageInsert(
    id: Option<int>,
    name: string,
    email: string,
    subject: string,
    message: string,
    read: Option<bool>,
    createdAt: Option<Timestamp>)

  // ---------------------------------------------------------------------
  // Storing an Insert: absent keys take the database's column defaults,
  // which the schema does not spell out and are therefore a parameter.

  datatype ColumnDefaults = ColumnDefaults(id: int, flag: bool, now: Timestamp)

  function StoreComment(ins: CommentInsert, d: ColumnDefaults): (c: Comment)
    ensures c.postId == ins.postId && c.name == ins.name
    ensures c.email == ins.email && c.content == ins.content
    ensures ins.approved.Some? ==> c.approved == ins.approved.value
  {
    Comment(ins.id.GetOr(d.id), ins.postId, ins.name, ins.email, ins.content,
            ins.approved.GetOr(d.flag), ins.createdAt.GetOr(d.now))
  }

  /** The Insert that names every column of `c`. */
  function CommentAsInsert(c: Comment): CommentInsert {
    CommentInsert(Some(c.id), c.postId, c.name, c.email, c.content, Some(c.approved), Some(c.createdAt))
  }

  /** An Insert that gives every optional key is stored as given, whatever the defaults. */
  lemma CommentInsertRoundTrip(c: Comment, d: ColumnDefaults)
    ensures StoreComment(CommentAsInsert(c), d) == c
  {
  }

  function StoreMessage(ins: MessageInsert, d: ColumnDefaults): (m: Message)
    ensures m.name == ins.name && m.email == ins.email
    ensures m.subject == ins.subject && m.message == ins.message
    ensures ins.read.Some? ==> m.read == ins.read.value
  {
    Message(ins.id.GetOr(d.id), ins.name, ins.email, ins.subject, ins.message,
            ins.read.GetOr(d.flag), ins.createdAt.GetOr(d.now))
  }

  function MessageAsInsert(m: Message): MessageInsert {
    MessageInsert(Some(m.id), m.name, m.email, m.subject, m.message, Some(m.read), Some(m.createdAt))
  }

  lemma MessageInsertRoundTrip(m: Message, d: ColumnDefaults)
    ensures StoreMessage(MessageAsInsert(m), d) == m
  {
  }

  function StoreProfile(ins: ProfileInsert, d: ColumnDefaults): (p: Profile)
    ensures p.id == ins.id && p.email == ins.email
    ensures ins.isAdmin.Some? ==> p.isAdmin == ins.isAdmin.value
  {
    Profile(ins.id, ins.email, ins.fullName.GetOr(None), ins.avatarUrl.GetOr(None),
            ins.isAdmin.GetOr(d.flag), ins.createdAt.GetOr(d.now), ins.updatedAt.GetOr(d.now))
  }

  function ProfileAsInsert(p: Profile): ProfileInsert {
    ProfileInsert(p.id, p.email, Some(p.fullName), Some(p.avatarUrl), Some(p.isAdmin),
                  Some(p.createdAt), Some(p.updatedAt))
  }

  lemma ProfileInsertRoundTrip(p: Profile, d: ColumnDefaults)
    ensures StoreProfile(ProfileAsInsert(p), d) == p
  {
  }

  /** An Update overwrites exactly the keys it carries; the rest stay. */
  function ApplyProfileUpdate(p: Profile, u: ProfileUpdate): (q: Profile)
    ensures u.id.None? ==> q.id == p.id
    ensures u.id.Some? ==> q.id == u.id.value
    ensures u.email.None? ==> q.email == p.email
    ensures u.email.Some? ==> q.email == u.email.value
    ensures u.fullName.None? ==> q.fullName == p.fullName
    ensures u.fullName.Some? ==> q.fullName == u.fullName.value
    ensures u.avatarUrl.None? ==> q.avatarUrl == p.avatarUrl
    ensures u.avatarUrl.Some? ==> q.avatarUrl == u.avatarUrl.value
    ensures u.isAdmin.None? ==> q.isAdmin == p.isAdmin
    ensures u.isAdmin.Some? ==> q.isAdmin == u.isAdmin.value
    ensures u.createdAt.None? ==> q.createdAt == p.createdAt
    ensures u.createdAt.Some? ==> q.createdAt == u.createdAt.value
    ensures u.updatedAt.None? ==> q.updatedAt == p.updatedAt
    ensures u.updatedAt.Some? ==> q.updatedAt == u.updatedAt.value
  {
    Profile(u.id.GetOr(p.id), u.email.GetOr(p.email), u.fullName.GetOr(p.fullName),
            u.avatarUrl.GetOr(p.avatarUrl), u.isAdmin.GetOr(p.isAdmin),
            u.createdAt.GetOr(p.createdAt), u.updatedAt.GetOr(p.updatedAt))
  }

  const EmptyProfileUpdate := ProfileUpdate(None, None, None, None, None, None, None)

  lemma EmptyProfileUpdateKeepsRow(p: Profile)
    ensures ApplyProfileUpdate(p, EmptyProfileUpdate) == p
  {
  }

  lemma ProfileUpdateIdempotent(p: Profile, u: ProfileUpdate)
    ensures ApplyProfileUpdate(ApplyProfileUpdate(p, u), u) == ApplyProfileUpdate(p, u)
  {
  }

  // ---------------------------------------------------------------------
  // Ordering by created_at

  /** `a <= b` in code-point order: ISO 8601 texts of one format compare chronologically. */
  predicate NotAfter(a: Timestamp, b: Timestamp) {
    if a == [] then true
    else if b == [] then false
    else if a[0] != b[0] then a[0] < b[0]
    else NotAfter(a[1..], b[1..])
  }
}

=== FILE: seqs.dfy ===
/**
 * Order-preserving selection over sequences: the model of JavaScript's
 * `Array.prototype.filter` and `String` character filters.
 */
module Seqs {

  /** The elements of `xs` that satisfy `keep`, in their original order. */
  function Filter<T(==)>(xs: seq<T>, keep: T -> bool): (r: seq<T>)
    ensures |r| <= |xs|
    ensures forall i :: 0 <= i < |r| ==> keep(r[i]) && r[i] in xs
    ensures forall i :: 0 <= i < |xs| && keep(xs[i]) ==> xs[i] in r
  {
    if xs == [] then []
    else if keep(xs[0]) then [xs[0]] + Filter(xs[1..], keep)
    else Filter(xs[1..], keep)
  }

  lemma FilterNoneKept<T>(xs: seq<T>, keep: T -> bool)
    requires forall i :: 0 <= i < |xs| ==> !keep(xs[i])
    ensures Filter(xs, keep) == []
  {
  }

  /** A filter that keeps every element returns the sequence unchanged. */
  lemma {:induction false} FilterAllKept<T>(xs: seq<T>, keep: T -> bool)
    requires forall i :: 0 <= i < |xs| ==> keep(xs[i])
    ensures Filter(xs, keep) == xs
    decreases |xs|
  {
    if xs != [] {
      FilterAllKept(xs[1..], keep);
      assert xs == [xs[0]] + xs[1..];
    }
  }

  /** Filtering a concatenation filters each part. */
  lemma {:induction false} FilterConcat<T>(a: seq<T>, b: seq<T>, keep: T -> bool)
    ensures Filter(a + b, keep) == Filter(a, keep) + Filter(b, keep)
    decreases |a|
  {
    if a == [] {
      assert a + b == b;
    } else {
      assert (a + b)[0] == a[0] && (a + b)[1..] == a[1..] + b;
      FilterConcat(a[1..], b, keep);
      if keep(a[0]) {
        assert Filter(a, keep) == [a[0]] + Filter(a[1..], keep);
      }
    }
  }

  /** `a` can be obtained from `b` by deleting elements. */
  ghost predicate IsSubsequence<T>(a: seq<T>, b: seq<T>)
    decreases |b|
  {
    if a == [] then true
    else if b == [] then false
    else if a[0] == b[0] then IsSubsequence(a[1..], b[1..])
    else IsSubsequence(a, b[1..])
  }

  /** Every pair of positions of `xs`, taken in order, is related by `before`. */
  ghost predicate Ordered<T>(xs: seq<T>, before: (T, T) -> bool) {
    forall i, j :: 0 <= i < j < |xs| ==> before(xs[i], xs[j])
  }

  lemma {:induction false} FilterIsSubsequence<T>(xs: seq<T>, keep: T -> bool)
    ensures IsSubsequence(Filter(xs, keep), xs)
    decreases |xs|
  {
    if xs != [] {
      FilterIsSubsequence(xs[1..], keep);
      var r := Filter(xs, keep);
      if keep(xs[0]) {
        assert r[1..] == Filter(xs[1..], keep);
      } else {
        SubsequenceOfTail(r, xs);
      }
    }
  }

  lemma {:induction false} SubsequenceOfTail<T>(a: seq<T>, b: seq<T>)
    requires b != [] && IsSubsequence(a, b[1..])
    ensures IsSubsequence(a, b)
    decreases |b|, 0
  {
    if a != [] && a[0] == b[0] {
      // a[1..] is a subsequence of b[1..] because a is.
      SubsequenceDropHead(a, b[1..]);
    }
  }

  lemma {:induction false} SubsequenceDropHead<T>(a: seq<T>, b: seq<T>)
    requires a != [] && IsSubsequence(a, b)
    ensures IsSubsequence(a[1..], b)
    decreases |b|, 1
  {
    if b != [] {
      if a[0] == b[0] {
        SubsequenceOfTail(a[1..], b);
      } else {
        SubsequenceDropHead(a, b[1..]);
        SubsequenceOfTail(a[1..], b);
      }
    }
  }

  /** Splitting by a predicate loses and duplicates nothing. */
  lemma {:induction false} FilterPartitionLength<T>(xs: seq<T>, keep: T -> bool, drop: T -> bool)
    requires forall x :: drop(x) == !keep(x)
    ensures |Filter(xs, keep)| + |Filter(xs, drop)| == |xs|
    decreases |xs|
  {
    if xs != [] {
      FilterPartitionLength(xs[1..], keep, drop);
    }
  }

  /** Filtering keeps any order the input was in. */
  lemma {:induction false} FilterKeepsOrder<T>(xs: seq<T>, keep: T -> bool, before: (T, T) -> bool)
    requires Ordered(xs, before)
    ensures Ordered(Filter(xs, keep), before)
    decreases |xs|
  {
    if xs != [] {
      FilterKeepsOrder(xs[1..], keep, before);
      var rest := Filter(xs[1..], keep);
      if keep(xs[0]) {
        var r := [xs[0]] + rest;
        forall i, j | 0 <= i < j < |r|
          ensures before(r[i], r[j])
        {
          if i == 0 {
            assert r[j] in xs[1..];
            var k :| 0 <= k < |xs[1..]| && xs[1..][k] == r[j];
            assert before(xs[0], xs[k + 1]);
          } else {
            assert r[i] == rest[i - 1] && r[j] == rest[j - 1];
          }
        }
      }
    }
  }
}

=== FILE: slug.dfy ===
/**
 * `generateSlug` of the new-blog-post form: lower-case the title, delete
 * every character that is neither a word character nor whitespace, and
 * replace each run of whitespace by one '-'.
 */
module Slug {
  import opened Text
  import opened Seqs

  /** The slug the three `replace` stages produce for `title`. */
  function SlugOf(title: string): (slug: string)
    ensures forall i :: 0 <= i < |slug| ==> !IsSpace(slug[i])
    ensures forall i :: 0 <= i < |slug| ==> IsSlugChar(slug[i])
  {
    var kept := Filter(Lower(title), IsWordOrSpace);
    var slug := ReplaceRuns(kept, '-');
    assert forall i :: 0 <= i < |slug| ==> IsSlugChar(slug[i]) by {
      forall i | 0 <= i < |slug|
        ensures IsSlugChar(slug[i])
      {
        if slug[i] != '-' {
          assert slug[i] in kept && IsWordOrSpace(slug[i]) && !IsSpace(slug[i]);
          assert slug[i] in Lower(title);
          var k :| 0 <= k < |title| && Lower(title)[k] == slug[i];
        }
      }
    }
    slug
  }

  /** The characters a slug may contain: `[a-z0-9_-]`. */
  predicate IsSlugChar(c: char) {
    ('a' <= c <= 'z') || ('0' <= c <= '9') || c == '_' || c == '-'
  }

  /**
   * `generateSlug`: an empty title leaves the current slug as it is;
   * otherwise the slug is derived from the title.
   */
  function GenerateSlug(title: string, current: string): (slug: string)
    ensures title == "" ==> slug == current
    ensures title != "" ==> forall i :: 0 <= i < |slug| ==> IsSlugChar(slug[i])
  {
    if title == "" then current else SlugOf(title)
  }

  /**
   * A generated slug never holds "--": every '-' of the title was deleted
   * before the whitespace runs were joined.
   */
  lemma SlugHasNoDoubleHyphen(title: string)
    ensures NoDoubled(SlugOf(title), '-')
  {
    var kept := Filter(Lower(title), IsWordOrSpace);
    assert '-' !in kept;
    ReplaceRunsNoDoubled(kept, '-');
  }

  /** A word of slug characters other than '-': lower-case letters, digits, '_'. */
  predicate IsSlugWord(s: string) {
    forall i :: 0 <= i < |s| ==> IsSlugChar(s[i]) && s[i] != '-'
  }

  /** Lower-casing and the filter leave a slug word unchanged. */
  lemma SlugWordKept(s: string)
    requires IsSlugWord(s)
    ensures Lower(s) == s
    ensures Filter(s, IsWordOrSpace) == s
    ensures forall i :: 0 <= i < |s| ==> !IsSpace(s[i])
  {
    assert forall i :: 0 <= i < |s| ==> !IsSpace(s[i]) && IsWordOrSpace(s[i]);
    assert forall i :: 0 <= i < |s| ==> Lower(s)[i] == s[i];
    FilterAllKept(s, IsWordOrSpace);
  }

  /**
   * Two lower-case words separated by one space become the two words
   * joined by one '-': "hello world" gives "hello-world".
   */
  lemma SlugJoinsWords(a: string, b: string)
    requires a != [] && IsSlugWord(a)
    requires b != [] && IsSlugWord(b)
    ensures SlugOf(a + " " + b) == a + "-" + b
  {
    var t := a + " " + b;
    SlugWordKept(a);
    SlugWordKept(b);
    assert forall i :: 0 <= i < |t| ==> LowerChar(t[i]) == t[i];
    assert Lower(t) == t;
    FilterConcat(a, " ", IsWordOrSpace);
    FilterConcat(a + " ", b, IsWordOrSpace);
    assert Filter(" ", IsWordOrSpace) == " ";
    assert Filter(t, IsWordOrSpace) == t;
    ReplaceRunsAtRun(a, " ", b, '-');
    ReplaceRunsNoSpace(a, '-');
    ReplaceRunsNoSpace(b, '-');
  }

  lemma {:induction false} FilterWordOrSpaceThenNotSpace(s: string)
    ensures Filter(Filter(s, IsWordOrSpace), IsNotSpace) == Filter(s, IsWordChar)
    decreases |s|
  {
    if s != [] {
      FilterWordOrSpaceThenNotSpace(s[1..]);
      if IsWordOrSpace(s[0]) {
        assert Filter(s, IsWordOrSpace) == [s[0]] + Filter(s[1..], IsWordOrSpace);
        assert ([s[0]] + Filter(s[1..], IsWordOrSpace))[1..] == Filter(s[1..], IsWordOrSpace);
      }
    }
  }

  /**
   * Deleting the hyphens of a slug leaves exactly the word characters of
   * the lower-cased title, in their order.
   */
  lemma SlugWithoutHyphens(title: string)
    ensures Erase(SlugOf(title), '-') == Filter(Lower(title), IsWordChar)
  {
    var kept := Filter(Lower(title), IsWordOrSpace);
    assert '-' !in kept;
    EraseReplaceRuns(kept, '-');
    FilterWordOrSpaceThenNotSpace(Lower(title));
  }
}

=== FILE: storage.dfy ===
/**
 * The object store behind the storage client, as an abstract state: a
 * list of buckets and a map from (bucket, path) to content. Each call the
 * site makes (list, create bucket, upload) may fail with an injected error
 * message; the helpers `ensureBucketExists`, `ensureFolderExists` and
 * `uploadFile` are written over these calls.
 */
module Storage {
  import opened Wrappers
  import opened Text
  import opened ObjectPath

  datatype Bucket = Bucket(name: string, isPublic: bool)

  datatype ObjectKey = ObjectKey(bucket: string, path: string)

  /** `url` is the storage endpoint the public URLs are formed from. */
  datatype Store = Store(url: string, buckets: seq<Bucket>, objects: map<ObjectKey, string>)

  /** The message the store gives for a bucket or object that is already there. */
  const AlreadyExists := "The resource already exists"
  /** The message the store gives for an upload into a bucket that is not there. */
  const BucketNotFound := "Bucket not found"

  /** `buckets.map(b => b.name)`. */
  function Names(bs: seq<Bucket>): (ns: seq<string>)
    ensures |ns| == |bs|
    ensures forall i :: 0 <= i < |bs| ==> ns[i] == bs[i].name
  {
    seq(|bs|, i requires 0 <= i < |bs| => bs[i].name)
  }

  /** `buckets?.some(b => b.name === name)`. */
  predicate HasBucket(bs: seq<Bucket>, name: string) {
    name in Names(bs)
  }

  /** Bucket names are unique and every object lives in an existing bucket. */
  ghost predicate Valid(st: Store) {
    (forall i, j :: 0 <= i < j < |st.buckets| ==> st.buckets[i].name != st.buckets[j].name)
    && (forall k :: k in st.objects ==> HasBucket(st.buckets, k.bucket))
  }

  // ---------------------------------------------------------------------
  // the store's calls

  /** The store after a call, and the error the call reported, if any. */
  datatype Call = Call(store: Store, error: Option<string>)

  /** `createBucket(name, { public })`. */
  function CreateBucket(st: Store, name: string, isPublic: bool, fault: Option<string>): (c: Call)
    ensures c.error.None? <==> fault.None? && !HasBucket(st.buckets, name)
    ensures fault.Some? ==> c.error == fault
    ensures c.error.Some? ==> c.store == st
    ensures c.error.None? ==> c.store == st.(buckets := st.buckets + [Bucket(name, isPublic)])
    ensures HasBucket(c.store.buckets, name) <==> HasBucket(st.buckets, name) || c.error.None?
  {
    if fault.Some? then Call(st, fault)
    else if HasBucket(st.buckets, name) then Call(st, Some(AlreadyExists))
    else
      var bs := st.buckets + [Bucket(name, isPublic)];
      assert Names(bs) == Names(st.buckets) + [name];
      Call(st.(buckets := bs), None)
  }

  lemma CreateBucketKeepsValid(st: Store, name: string, isPublic: bool, fault: Option<string>)
    requires Valid(st)
    ensures Valid(CreateBucket(st, name, isPublic, fault).store)
  {
    var c := CreateBucket(st, name, isPublic, fault);
    if c.error.None? {
      var bs := c.store.buckets;
      assert Names(bs) == Names(st.buckets) + [name];
      forall i, j | 0 <= i < j < |bs|
        ensures bs[i].name != bs[j].name
      {
        if j == |bs| - 1 {
          assert Names(st.buckets)[i] == bs[i].name;
        }
      }
      forall k | k in c.store.objects
        ensures HasBucket(bs, k.bucket)
      {
        assert k.bucket in Names(st.buckets);
      }
    }
  }

  /**
   * `from(bucket).upload(path, content, { upsert })`: without upsert an
   * existing object is kept and the call fails; with upsert it is replaced.
   */
  function Upload(st: Store, bucket: string, path: string, content: string, upsert: bool, fault: Option<string>): (c: Call)
    ensures c.error.None? <==>
              fault.None? && HasBucket(st.buckets, bucket) && (upsert || ObjectKey(bucket, path) !in st.objects)
    ensures fault.Some? ==> c.error == fault
    ensures c.error.Some? ==> c.store == st
    ensures c.error.None? ==> c.store == st.(objects := st.objects[ObjectKey(bucket, path) := content])
    ensures fault.None? && HasBucket(st.buckets, bucket) && !upsert && ObjectKey(bucket, path) in st.objects ==>
              c.error == Some(AlreadyExists)
  {
    var key := ObjectKey(bucket, path);
    if fault.Some? then Call(st, fault)
    else if !HasBucket(st.buckets, bucket) then Call(st, Some(BucketNotFound))
    else if !upsert && key in st.objects then Call(st, Some(AlreadyExists))
    else Call(st.(objects := st.objects[key := content]), None)
  }

  lemma UploadKeepsValid(st: Store, bucket: string, path: string, content: string, upsert: bool, fault: Option<string>)
    requires Valid(st)
    ensures Valid(Upload(st, bucket, path, content, upsert, fault).store)
  {
  }

  /** `getPublicUrl(path)`: the public address of an object. */
  function PublicUrl(url: string, bucket: string, path: string): (u: string)
    ensures StartsWith(u, url + "/object/public/" + bucket + "/")
    ensures u[|url + "/object/public/" + bucket + "/"|..] == path
  {
    var prefix := url + "/object/public/" + bucket + "/";
    var u := prefix + path;
    assert u[..|prefix|] == prefix;
    u
  }

  /** Within one bucket, different paths have different public addresses. */
  lemma PublicUrlInjective(url: string, bucket: string, p1: string, p2: string)
    requires PublicUrl(url, bucket, p1) == PublicUrl(url, bucket, p2)
    ensures p1 == p2
  {
  }

  // ---------------------------------------------------------------------
  // the helpers

  datatype Status = Success | Failure(error: string)

  datatype Step = Step(store: Store, status: Status)

  /**
   * `ensureBucketExists(name, isPublic = true)`: a listing error is a
   * failure with nothing created; a missing bucket is created with the
   * given visibility, and a creation error is a failure; otherwise success.
   */
  function EnsureBucketExists(st: Store, name: string, listFault: Option<string>, createFault: Option<string>,
                              isPublic: bool := true): (r: Step)
    ensures listFault.Some? ==> r == Step(st, Failure(listFault.value))
    ensures r.status.Success? <==> listFault.None? && (HasBucket(st.buckets, name) || createFault.None?)
    ensures r.status.Success? ==> HasBucket(r.store.buckets, name)
    ensures HasBucket(st.buckets, name) ==> r.store == st
    ensures r.store != st <==> listFault.None? && !HasBucket(st.buckets, name) && createFault.None?
    ensures r.store != st ==> r.store == st.(buckets := st.buckets + [Bucket(name, isPublic)])
  {
    if listFault.Some? then Step(st, Failure(listFault.value))
    else if HasBucket(st.buckets, name) then Step(st, Success)
    else
      var c := CreateBucket(st, name, isPublic, createFault);
      assert c.error.None? ==> |c.store.buckets| != |st.buckets|;
      match c.error
      case Some(e) => Step(c.store, Failure(e))
      case None => Step(c.store, Success)
  }

  /** Once a bucket has been ensured, ensuring it again creates nothing and succeeds. */
  lemma EnsureBucketIdempotent(st: Store, name: string, f1: Option<string>, f2: Option<string>, isPublic: bool)
    requires EnsureBucketExists(st, name, None, f1, isPublic).status.Success?
    ensures var st' := EnsureBucketExists(st, name, None, f1, isPublic).store;
            EnsureBucketExists(st', name, None, f2, isPublic) == Step(st', Success)
  {
  }

  lemma EnsureBucketKeepsValid(st: Store, name: string, listFault: Option<string>, createFault: Option<string>, isPublic: bool)
    requires Valid(st)
    ensures Valid(EnsureBucketExists(st, name, listFault, createFault, isPublic).store)
  {
    if listFault.None? && !HasBucket(st.buckets, name) {
      CreateBucketKeepsValid(st, name, isPublic, createFault);
    }
  }

  /**
   * `ensureFolderExists(bucket, folder)`: uploads the empty marker object
   * without upsert; an error whose message mentions "The resource already
   * exists" counts as success.
   */
  function EnsureFolderExists(st: Store, bucket: string, folder: string, fault: Option<string>): (r: Step)
    ensures r.store.buckets == st.buckets
    ensures r.store == st || r.store.objects == st.objects[ObjectKey(bucket, FolderMarker(folder)) := ""]
    ensures ObjectKey(bucket, FolderMarker(folder)) in st.objects ==> r.store == st
    ensures r.status.Success? ==>
              ObjectKey(bucket, FolderMarker(folder)) in r.store.objects
              || (fault.Some? && MentionsAlreadyExists(fault.value))
    ensures fault.None? ==> (r.status.Success? <==> HasBucket(st.buckets, bucket))
    ensures fault.Some? ==> (r.status.Success? <==> MentionsAlreadyExists(fault.value))
    ensures fault.Some? && r.status.Failure? ==> r.status.error == fault.value
  {
    var c := Upload(st, bucket, FolderMarker(folder), "", false, fault);
    ShorterDoesNotContain(BucketNotFound, AlreadyExists);
    if c.error.Some? && !MentionsAlreadyExists(c.error.value) then Step(c.store, Failure(c.error.value))
    else Step(c.store, Success)
  }

  /** `message.includes('The resource already exists')`. */
  predicate MentionsAlreadyExists(message: string)
    ensures message == AlreadyExists ==> MentionsAlreadyExists(message)
  {
    ContainsSelf(message);
    Contains(message, AlreadyExists)
  }

  lemma {:induction false} ShorterDoesNotContain(s: string, sub: string)
    requires |s| < |sub|
    ensures !Contains(s, sub)
  {
    if s != [] {
      ShorterDoesNotContain(s[1..], sub);
    }
  }

  lemma ContainsSelf(x: string)
    ensures Contains(x, x)
  {
    ContainsInfix([], x, []);
    assert [] + x + [] == x;
  }

  /** A folder that was ensured once is ensured again, and nothing changes. */
  lemma EnsureFolderIdempotent(st: Store, bucket: string, folder: string)
    requires EnsureFolderExists(st, bucket, folder, None).status.Success?
    ensures var st' := EnsureFolderExists(st, bucket, folder, None).store;
            EnsureFolderExists(st', bucket, folder, None) == Step(st', Success)
  {
  }

  /** What `uploadFile` returns: `publicUrl` is null on failure. */
  datatype UploadResult = UploadResult(store: Store, success: bool, error: Option<string>, publicUrl: Option<string>)

  /**
   * `uploadFile(bucket, path, file)`: an upsert upload; on success the
   * public URL of exactly that path, on failure no URL and no change.
   */
  function UploadFile(st: Store, bucket: string, path: string, content: string, fault: Option<string>): (r: UploadResult)
    ensures r.success <==> fault.None? && HasBucket(st.buckets, bucket)
    ensures r.success ==> r.publicUrl == Some(PublicUrl(st.url, bucket, path)) && r.error.None?
    ensures r.success ==> r.store.objects == st.objects[ObjectKey(bucket, path) := content]
    ensures !r.success ==> r.publicUrl.None? && r.error.Some? && r.store == st
    ensures r.store.buckets == st.buckets && r.store.url == st.url
  {
    var c := Upload(st, bucket, path, content, true, fault);
    if c.error.Some? then UploadResult(c.store, false, c.error, None)
    else UploadResult(c.store, true, None, Some(PublicUrl(st.url, bucket, path)))
  }

  /** Uploading to a path that already holds an object replaces it: the last upload wins. */
  lemma UploadFileOverwrites(st: Store, bucket: string, path: string, a: string, b: string)
    requires HasBucket(st.buckets, bucket)
    ensures var st1 := UploadFile(st, bucket, path, a, None).store;
            var r := UploadFile(st1, bucket, path, b, None);
            r.success && r.store.objects == st.objects[ObjectKey(bucket, path) := b]
  {
  }
}

=== FILE: text.dfy ===
/**
 * Character classes and string primitives of JavaScript that the site's
 * text handling relies on: the `\s` and `\w` regular-expression classes,
 * `toLowerCase` (ASCII only), `trim`, `split`, `startsWith`, `includes`,
 * and the `replace(/\s+/g, c)` run collapse.
 */
module Text {
  import opened Seqs

  /**
   * JavaScript's `\s` class, which is also the set `String.prototype.trim`
   * removes: the WhiteSpace and LineTerminator code points of ECMAScript.
   */
  predicate IsSpace(c: char) {
    || c == ' ' || c == '\t' || c == '\n' || c == '\U{000B}' || c == '\U{000C}' || c == '\r'
    || c == '\U{00A0}' || c == '\U{1680}' || ('\U{2000}' <= c <= '\U{200A}')
    || c == '\U{2028}' || c == '\U{2029}' || c == '\U{202F}' || c == '\U{205F}'
    || c == '\U{3000}' || c == '\U{FEFF}'
  }

  predicate IsNotSpace(c: char) {
    !IsSpace(c)
  }

  /** JavaScript's `\w` class (also under the `i` flag, without `u`): `[A-Za-z0-9_]`. */
  predicate IsWordChar(c: char) {
    ('a' <= c <= 'z') || ('A' <= c <= 'Z') || ('0' <= c <= '9') || c == '_'
  }

  /** The characters a `[^\w\s]` replacement leaves in place. */
  predicate IsWordOrSpace(c: char) {
    IsWordChar(c) || IsSpace(c)
  }

  /** `toLowerCase` restricted to ASCII: other characters are left as they are. */
  function LowerChar(c: char): char {
    if 'A' <= c <= 'Z' then (c as int - 'A' as int + 'a' as int) as char else c
  }

  function Lower(s: string): (r: string)
    ensures |r| == |s|
    ensures forall i :: 0 <= i < |s| ==> r[i] == LowerChar(s[i])
  {
    seq(|s|, i requires 0 <= i < |s| => LowerChar(s[i]))
  }

  predicate AllSpace(s: string) {
    forall i :: 0 <= i < |s| ==> IsSpace(s[i])
  }

  predicate StartsWith(s: string, prefix: string) {
    |prefix| <= |s| && s[..|prefix|] == prefix
  }

  predicate EndsWith(s: string, suffix: string) {
    |suffix| <= |s| && s[|s| - |suffix|..] == suffix
  }

  /** `s.includes(sub)`. */
  predicate Contains(s: string, sub: string) {
    StartsWith(s, sub) || (s != [] && Contains(s[1..], sub))
  }

  lemma {:induction false} ContainsInfix(a: string, x: string, b: string)
    ensures Contains(a + x + b, x)
  {
    if a == [] {
      assert (a + x + b)[..|x|] == x;
    } else {
      ContainsInfix(a[1..], x, b);
      assert (a + x + b)[1..] == a[1..] + x + b;
    }
  }

  /** The number of occurrences of `c` in `s`. */
  function Count(s: string, c: char): nat {
    if s == [] then 0 else (if s[0] == c then 1 else 0) + Count(s[1..], c)
  }

  /** Remove every `c` from `s`. */
  function Erase(s: string, c: char): (r: string)
    ensures c !in r
    ensures |r| == |s| - Count(s, c)
  {
    if s == [] then []
    else if s[0] == c then Erase(s[1..], c)
    else [s[0]] + Erase(s[1..], c)
  }

  // ---------------------------------------------------------------------
  // trim

  /** Length of the leading run of whitespace. */
  function SpaceRun(s: string): (n: nat)
    ensures n <= |s|
    ensures AllSpace(s[..n])
    ensures n < |s| ==> !IsSpace(s[n])
  {
    if s != [] && IsSpace(s[0]) then 1 + SpaceRun(s[1..]) else 0
  }

  /** Length of the trailing run of whitespace. */
  function TrailingSpaceRun(s: string): (n: nat)
    ensures n <= |s|
    ensures AllSpace(s[|s| - n..])
    ensures n < |s| ==> !IsSpace(s[|s| - n - 1])
    decreases |s|
  {
    if s != [] && IsSpace(s[|s| - 1]) then
      var t := s[..|s| - 1];
      var k := TrailingSpaceRun(t);
      assert s[|s| - (k + 1)..] == t[|t| - k..] + [s[|s| - 1]];
      k + 1
    else 0
  }

  /** `trimStart`. */
  function TrimStart(s: string): (r: string)
    ensures r == [] || !IsSpace(r[0])
  {
    s[SpaceRun(s)..]
  }

  /** Neither end of `s` is whitespace. */
  predicate IsTrimmed(s: string) {
    s == [] || (!IsSpace(s[0]) && !IsSpace(s[|s| - 1]))
  }

  /** `trimEnd`: `t` without its trailing whitespace. */
  function TrimEnd(t: string): (r: string)
    ensures |r| <= |t| && r == t[..|r|]
    ensures r == [] || !IsSpace(r[|r| - 1])
    ensures AllSpace(t[|r|..])
  {
    t[..|t| - TrailingSpaceRun(t)]
  }

  /** `trim`: the text between the leading and the trailing whitespace. */
  function Trim(s: string): (r: string)
    ensures IsTrimmed(r)
    ensures SpaceRun(s) + |r| <= |s| && r == s[SpaceRun(s)..SpaceRun(s) + |r|]
    ensures AllSpace(s[..SpaceRun(s)]) && AllSpace(s[SpaceRun(s) + |r|..])
    ensures forall c :: c in r ==> c in s
  {
    TrimEnd(TrimStart(s))
  }

  /** Whitespace only at the two ends of `s` is what `trim` removes. */
  lemma TrimUnchanged(s: string)
    requires IsTrimmed(s)
    ensures Trim(s) == s
  {
  }

  lemma TrimAllSpace(s: string)
    requires AllSpace(s)
    ensures Trim(s) == ""
  {
  }

  lemma TrimIdempotent(s: string)
    ensures Trim(Trim(s)) == Trim(s)
  {
    TrimUnchanged(Trim(s));
  }

  /** A leading whitespace character does not change what `trimStart` keeps. */
  lemma TrimStartSkip(s: string, k: nat)
    requires k <= SpaceRun(s)
    ensures TrimStart(s[k..]) == TrimStart(s)
    decreases k
  {
    if k > 0 {
      assert s[1..][k - 1..] == s[k..];
      TrimStartSkip(s[1..], k - 1);
    }
  }

  // ---------------------------------------------------------------------
  // split and join

  /** `s.split(sep)`: the pieces between occurrences of `sep`. */
  function Split(s: string, sep: char): (parts: seq<string>)
    ensures |parts| == Count(s, sep) + 1
    ensures forall i :: 0 <= i < |parts| ==> sep !in parts[i]
  {
    if s == [] then [""]
    else
      var rest := Split(s[1..], sep);
      if s[0] == sep then [""] + rest else [[s[0]] + rest[0]] + rest[1..]
  }

  /** `parts.join(sep)`. */
  function Join(parts: seq<string>, sep: char): string
    requires |parts| >= 1
  {
    if |parts| == 1 then parts[0] else parts[0] + [sep] + Join(parts[1..], sep)
  }

  lemma JoinConsHead(c: char, parts: seq<string>, sep: char)
    requires |parts| >= 1
    ensures Join([[c] + parts[0]] + parts[1..], sep) == [c] + Join(parts, sep)
  {
    var ps := [[c] + parts[0]] + parts[1..];
    assert ps[1..] == parts[1..];
  }

  /** Joining the pieces with the separator gives back the string. */
  lemma {:induction false} JoinSplit(s: string, sep: char)
    ensures Join(Split(s, sep), sep) == s
    decreases |s|
  {
    if s != [] {
      var rest := Split(s[1..], sep);
      JoinSplit(s[1..], sep);
      if s[0] == sep {
        assert ([""] + rest)[1..] == rest;
      } else {
        JoinConsHead(s[0], rest, sep);
      }
    }
  }

  /** Splitting a join of separator-free pieces gives back the pieces. */
  lemma {:induction false} SplitJoin(parts: seq<string>, sep: char)
    requires |parts| >= 1
    requires forall i :: 0 <= i < |parts| ==> sep !in parts[i]
    ensures Split(Join(parts, sep), sep) == parts
    decreases |parts|, |parts[0]|
  {
    var p := parts[0];
    if p == [] {
      if |parts| > 1 {
        SplitJoin(parts[1..], sep);
        assert Join(parts, sep) == [sep] + Join(parts[1..], sep);
        assert ([sep] + Join(parts[1..], sep))[1..] == Join(parts[1..], sep);
      }
    } else {
      var parts' := [p[1..]] + parts[1..];
      assert parts'[1..] == parts[1..];
      SplitJoin(parts', sep);
      assert Join(parts, sep) == [p[0]] + Join(parts', sep) by {
        if |parts| == 1 {
        } else {
          assert p == [p[0]] + p[1..];
        }
      }
      assert ([p[0]] + Join(parts', sep))[1..] == Join(parts', sep);
      assert parts'[0] == p[1..] && [p[0]] + p[1..] == p;
      assert [p] + parts[1..] == parts;
      assert [[p[0]] + parts'[0]] + parts'[1..] == parts;
    }
  }

  // ---------------------------------------------------------------------
  // replace(/\s+/g, c)

  /** Replace every maximal run of whitespace in `s` by the single character `c`. */
  function ReplaceRuns(s: string, c: char): (r: string)
    ensures |r| == 0 <==> |s| == 0
    ensures r != [] ==> r[0] == (if IsSpace(s[0]) then c else s[0])
    ensures forall i :: 0 <= i < |r| ==> r[i] == c || (r[i] in s && !IsSpace(r[i]))
    decreases |s|
  {
    if s == [] then []
    else if IsSpace(s[0]) then [c] + ReplaceRuns(TrimStart(s), c)
    else [s[0]] + ReplaceRuns(s[1..], c)
  }

  /** No two `c` in a row. */
  predicate NoDoubled(s: string, c: char) {
    forall i :: 0 <= i < |s| - 1 ==> !(s[i] == c && s[i + 1] == c)
  }

  /**
   * After the collapse, `c` never appears twice in a row, provided `c`
   * itself is whitespace (so runs absorb it) or does not occur in `s`.
   */
  lemma {:induction false} ReplaceRunsNoDoubled(s: string, c: char)
    requires IsSpace(c) || c !in s
    ensures NoDoubled(ReplaceRuns(s, c), c)
    decreases |s|
  {
    if s != [] {
      var r := ReplaceRuns(s, c);
      if IsSpace(s[0]) {
        var t := TrimStart(s);
        assert forall x :: x in t ==> x in s;
        ReplaceRunsNoDoubled(t, c);
        assert r == [c] + ReplaceRuns(t, c);
      } else {
        assert forall x :: x in s[1..] ==> x in s;
        ReplaceRunsNoDoubled(s[1..], c);
        assert r == [s[0]] + ReplaceRuns(s[1..], c);
      }
    }
  }

  /** A string already in collapsed form is left alone by the collapse. */
  lemma {:induction false} ReplaceRunsFixpoint(s: string)
    requires forall i :: 0 <= i < |s| && IsSpace(s[i]) ==> s[i] == ' '
    requires NoDoubled(s, ' ')
    ensures ReplaceRuns(s, ' ') == s
    decreases |s|
  {
    if s != [] {
      if IsSpace(s[0]) {
        assert SpaceRun(s) == 1 by {
          if |s| > 1 {
            assert SpaceRun(s[1..]) == 0;
          }
        }
        ReplaceRunsFixpoint(s[1..]);
      } else {
        ReplaceRunsFixpoint(s[1..]);
      }
    }
  }

  /** Text without whitespace is left alone by the collapse, whatever the replacement. */
  lemma {:induction false} ReplaceRunsNoSpace(s: string, c: char)
    requires forall i :: 0 <= i < |s| ==> !IsSpace(s[i])
    ensures ReplaceRuns(s, c) == s
    decreases |s|
  {
    if s != [] {
      ReplaceRunsNoSpace(s[1..], c);
      assert s == [s[0]] + s[1..];
    }
  }

  /** The leading whitespace run of `a + rest` is that of `a` when `a` holds a non-space character. */
  lemma {:induction false} SpaceRunAppend(a: string, rest: string)
    requires SpaceRun(a) < |a|
    ensures SpaceRun(a + rest) == SpaceRun(a)
    decreases |a|
  {
    if IsSpace(a[0]) {
      assert (a + rest)[1..] == a[1..] + rest;
      SpaceRunAppend(a[1..], rest);
    }
  }

  /** A whitespace block followed by a non-space character (or nothing) is one whole run. */
  lemma {:induction false} SpaceRunOfBlock(w: string, b: string)
    requires AllSpace(w)
    requires b == [] || !IsSpace(b[0])
    ensures SpaceRun(w + b) == |w|
    decreases |w|
  {
    if w != [] {
      assert (w + b)[0] == w[0];
      assert (w + b)[1..] == w[1..] + b;
      SpaceRunOfBlock(w[1..], b);
    } else {
      assert w + b == b;
    }
  }

  /** `trimStart` of `a + rest` only touches `a` when `a` ends in a non-space character. */
  lemma TrimStartAppend(a: string, rest: string)
    requires a != [] && !IsSpace(a[|a| - 1])
    ensures TrimStart(a + rest) == TrimStart(a) + rest
    ensures TrimStart(a) != [] && TrimStart(a)[|TrimStart(a)| - 1] == a[|a| - 1]
  {
    var n := SpaceRun(a);
    assert a[..|a|] == a;
    assert n < |a|;
    SpaceRunAppend(a, rest);
    assert (a + rest)[n..] == a[n..] + rest;
  }

  /** One unfolding of `ReplaceRuns` at a non-space first character. */
  lemma ReplaceRunsWordHead(x: char, s: string, c: char)
    requires !IsSpace(x)
    ensures ReplaceRuns([x] + s, c) == [x] + ReplaceRuns(s, c)
  {
    assert ([x] + s)[0] == x && ([x] + s)[1..] == s;
  }

  /** One unfolding of `ReplaceRuns` at a whitespace first character. */
  lemma ReplaceRunsSpaceHead(s: string, c: char)
    requires s != [] && IsSpace(s[0])
    ensures ReplaceRuns(s, c) == [c] + ReplaceRuns(TrimStart(s), c)
  {
  }

  /** A whitespace block followed by a non-space character (or nothing) collapses to one `c`. */
  lemma ReplaceRunsBlock(w: string, b: string, c: char)
    requires w != [] && AllSpace(w)
    requires b == [] || !IsSpace(b[0])
    ensures ReplaceRuns(w + b, c) == [c] + ReplaceRuns(b, c)
  {
    SpaceRunOfBlock(w, b);
    assert (w + b)[0] == w[0];
    assert TrimStart(w + b) == b;
    ReplaceRunsSpaceHead(w + b, c);
  }

  /**
   * A maximal whitespace run between two parts becomes exactly one `c`,
   * and each part is collapsed on its own.
   */
  lemma {:induction false} ReplaceRunsAtRun(a: string, w: string, b: string, c: char)
    requires a == [] || !IsSpace(a[|a| - 1])
    requires w != [] && AllSpace(w)
    requires b == [] || !IsSpace(b[0])
    ensures ReplaceRuns(a + w + b, c) == ReplaceRuns(a, c) + [c] + ReplaceRuns(b, c)
    decreases |a|, 1
  {
    if a == [] {
      assert a + w + b == w + b;
      ReplaceRunsBlock(w, b, c);
    } else if IsSpace(a[0]) {
      ReplaceRunsAtRunSpaceHead(a, w, b, c);
    } else {
      ReplaceRunsAtRunWordHead(a, w, b, c);
    }
  }

  /** The case of `ReplaceRunsAtRun` where `a` starts with a non-space character. */
  lemma {:induction false} ReplaceRunsAtRunWordHead(a: string, w: string, b: string, c: char)
    requires a != [] && !IsSpace(a[0]) && !IsSpace(a[|a| - 1])
    requires w != [] && AllSpace(w)
    requires b == [] || !IsSpace(b[0])
    ensures ReplaceRuns(a + w + b, c) == ReplaceRuns(a, c) + [c] + ReplaceRuns(b, c)
    decreases |a|, 0
  {
    var a' := a[1..];
    var rest := a' + w + b;
    assert a == [a[0]] + a';
    assert a + w + b == [a[0]] + rest;
    assert a' == [] || a'[|a'| - 1] == a[|a| - 1];
    ReplaceRunsAtRun(a', w, b, c);
    ReplaceRunsWordHead(a[0], rest, c);
    ReplaceRunsWordHead(a[0], a', c);
    ConcatAssoc3([a[0]], ReplaceRuns(a', c), [c], ReplaceRuns(b, c));
  }

  /** The case of `ReplaceRunsAtRun` where `a` starts with whitespace. */
  lemma {:induction false} ReplaceRunsAtRunSpaceHead(a: string, w: string, b: string, c: char)
    requires a != [] && IsSpace(a[0]) && !IsSpace(a[|a| - 1])
    requires w != [] && AllSpace(w)
    requires b == [] || !IsSpace(b[0])
    ensures ReplaceRuns(a + w + b, c) == ReplaceRuns(a, c) + [c] + ReplaceRuns(b, c)
    decreases |a|, 0
  {
    var s := a + w + b;
    var t := TrimStart(a);
    assert s == a + (w + b) && s[0] == a[0];
    TrimStartAppend(a, w + b);
    assert TrimStart(s) == t + w + b;
    assert |t| < |a|;
    ReplaceRunsAtRun(t, w, b, c);
    ReplaceRunsSpaceHead(s, c);
    ReplaceRunsSpaceHead(a, c);
    ConcatAssoc3([c], ReplaceRuns(t, c), [c], ReplaceRuns(b, c));
  }

  /** Regrouping a concatenation of four parts. */
  lemma ConcatAssoc3(x: string, y: string, z: string, u: string)
    ensures x + (y + z + u) == x + y + z + u
  {
  }

  /** Dropping whitespace from a string that starts with whitespace. */
  lemma FilterNotSpaceSkip(s: string)
    ensures Filter(TrimStart(s), IsNotSpace) == Filter(s, IsNotSpace)
    decreases |s|
  {
    if s != [] && IsSpace(s[0]) {
      FilterNotSpaceSkip(s[1..]);
    }
  }

  /**
   * With a whitespace replacement character, the collapse keeps exactly
   * the non-whitespace characters of `s`, in their order.
   */
  lemma {:induction false} ReplaceRunsKeepsWords(s: string, c: char)
    requires IsSpace(c)
    ensures Filter(ReplaceRuns(s, c), IsNotSpace) == Filter(s, IsNotSpace)
    decreases |s|
  {
    if s != [] {
      if IsSpace(s[0]) {
        var t := TrimStart(s);
        assert |t| < |s|;
        ReplaceRunsKeepsWords(t, c);
        FilterNotSpaceSkip(s);
        assert ([c] + ReplaceRuns(t, c))[1..] == ReplaceRuns(t, c);
      } else {
        ReplaceRunsKeepsWords(s[1..], c);
        assert ([s[0]] + ReplaceRuns(s[1..], c))[1..] == ReplaceRuns(s[1..], c);
      }
    }
  }

  /** `trim` removes whitespace only: the non-whitespace characters all survive, in order. */
  lemma TrimKeepsWords(s: string)
    ensures Filter(Trim(s), IsNotSpace) == Filter(s, IsNotSpace)
  {
    var t := TrimStart(s);
    FilterNotSpaceSkip(s);
    var r := Trim(s);
    assert t == r + t[|r|..];
    FilterConcat(r, t[|r|..], IsNotSpace);
    FilterNoneKept(t[|r|..], IsNotSpace);
  }

  /**
   * When the replacement character is not whitespace and not in `s`,
   * erasing it again leaves exactly the non-whitespace characters of `s`.
   */
  lemma {:induction false} EraseReplaceRuns(s: string, c: char)
    requires !IsSpace(c) && c !in s
    ensures Erase(ReplaceRuns(s, c), c) == Filter(s, IsNotSpace)
    decreases |s|
  {
    if s != [] {
      if IsSpace(s[0]) {
        var t := TrimStart(s);
        assert forall x :: x in t ==> x in s;
        EraseReplaceRuns(t, c);
        FilterNotSpaceSkip(s);
        assert ReplaceRuns(s, c) == [c] + ReplaceRuns(t, c);
      } else {
        assert forall x :: x in s[1..] ==> x in s;
        EraseReplaceRuns(s[1..], c);
        assert ReplaceRuns(s, c) == [s[0]] + ReplaceRuns(s[1..], c);
      }
    }
  }
}

=== FILE: upload_diagnostic.dfy ===
/**
 * `GET /api/upload/test`: a diagnostic that resolves the session, lists
 * the buckets, makes sure an 'images' bucket exists, and uploads a small
 * text file to 'test/api-test.txt', classifying the result as an
 * authentication error (401), a storage error (500), a partial success
 * (200, upload refused) or a success (200).
 */
module UploadDiagnostic {
  import opened Wrappers
  import opened Text
  import opened Rows
  import opened Storage

  const ImagesBucket := "images"
  const TestPath := "test/api-test.txt"
  const TestContent := "test"
  const SuccessMessage := "API endpoint is working correctly and storage access is confirmed."

  /** What `auth.getUser()` resolves to: a user or none, and an error or none. */
  datatype AuthResult = AuthResult(user: Option<SessionUser>, error: Option<string>)

  datatype TestFaults = TestFaults(list: Option<string>, create: Option<string>, upload: Option<string>)

  datatype TestBody =
    | TestError(error: string)
    | Partial(message: string, error: string)
    | Working(message: string, user: Option<SessionUser>, buckets: seq<string>)

  datatype TestReply = TestReply(status: int, body: TestBody)

  datatype Diagnosed = Diagnosed(store: Store, reply: TestReply)

  function PartialMessage(error: string): string {
    "API endpoint is working, but there are RLS policy issues: " + error
    + ". Using the server-side API route should bypass these restrictions."
  }

  /** `GET`. */
  function Diagnose(st: Store, auth: AuthResult, faults: TestFaults): (d: Diagnosed)
    ensures auth.error.Some? ==>
              d == Diagnosed(st, TestReply(401, TestError("Authentication error: " + auth.error.value)))
    ensures auth.error.None? && faults.list.Some? ==>
              d == Diagnosed(st, TestReply(500, TestError("Error listing buckets: " + faults.list.value)))
    ensures d.reply.status == 200 <==>
              auth.error.None? && faults.list.None? && (HasBucket(st.buckets, ImagesBucket) || faults.create.None?)
    ensures d.reply.body.Partial? <==> d.reply.status == 200 && faults.upload.Some?
    ensures auth.error.None? && faults.list.None? && !HasBucket(st.buckets, ImagesBucket) && faults.create.Some? ==>
              d == Diagnosed(st, TestReply(500, TestError("Error creating bucket: " + faults.create.value)))
    ensures d.reply.body.Partial? ==>
              faults.upload.Some? && d.reply.body == Partial(PartialMessage(faults.upload.value), faults.upload.value)
    ensures d.reply.body.Working? ==> d.store.objects == st.objects[ObjectKey(ImagesBucket, TestPath) := TestContent]
    ensures d.reply.body.Partial? ==> d.store.objects == st.objects
    ensures d.reply.body.Working? ==>
              d.reply.body.user == auth.user && d.reply.body.buckets == Names(st.buckets)
              && d.reply.body.message == SuccessMessage
  {
    if auth.error.Some? then
      Diagnosed(st, TestReply(401, TestError("Authentication error: " + auth.error.value)))
    else if faults.list.Some? then
      Diagnosed(st, TestReply(500, TestError("Error listing buckets: " + faults.list.value)))
    else
      var c := if HasBucket(st.buckets, ImagesBucket) then Call(st, None)
               else CreateBucket(st, ImagesBucket, true, faults.create);
      match c.error
      case Some(e) => Diagnosed(c.store, TestReply(500, TestError("Error creating bucket: " + e)))
      case None =>
        var u := Upload(c.store, ImagesBucket, TestPath, TestContent, true, faults.upload);
        match u.error
        case Some(e) => Diagnosed(u.store, TestReply(200, Partial(PartialMessage(e), e)))
        case None => Diagnosed(u.store, TestReply(200, Working(SuccessMessage, auth.user, Names(st.buckets))))
  }

  /** Without an authentication error a missing session is not rejected: the diagnostic runs and reports no user. */
  lemma AnonymousNotRejected(st: Store, faults: TestFaults)
    requires faults.list.None? && faults.create.None? && faults.upload.None?
    ensures Diagnose(st, AuthResult(None, None), faults).reply ==
              TestReply(200, Working(SuccessMessage, None, Names(st.buckets)))
  {
  }

  /**
   * The 'images' bucket is created, public, only when it is not listed, and
   * a successful run leaves the test file in it.
   */
  lemma ImagesBucketCreatedOnlyIfAbsent(st: Store, auth: AuthResult, faults: TestFaults)
    ensures var d := Diagnose(st, auth, faults);
            d.store.buckets == st.buckets
            || (!HasBucket(st.buckets, ImagesBucket) && d.store.buckets == st.buckets + [Bucket(ImagesBucket, true)])
    ensures var d := Diagnose(st, auth, faults);
            d.reply.body.Working? ==>
              ObjectKey(ImagesBucket, TestPath) in d.store.objects
              && d.store.objects[ObjectKey(ImagesBucket, TestPath)] == TestContent
  {
  }

  /**
   * The success body reports the buckets as first listed: when the run had
   * to create 'images', that bucket is not among the reported names.
   */
  lemma ReportedBucketsPrecedeCreation(st: Store, auth: AuthResult, faults: TestFaults)
    requires !HasBucket(st.buckets, ImagesBucket)
    ensures var d := Diagnose(st, auth, faults);
            d.reply.body.Working? ==> ImagesBucket !in d.reply.body.buckets && HasBucket(d.store.buckets, ImagesBucket)
  {
  }
}

=== FILE: upload_route.dfy ===
/**
 * `POST /api/upload`: takes a multipart form with a file, a bucket and an
 * optional folder, makes sure the bucket exists (creating it public),
 * writes the folder's marker object, and uploads the file under a fresh
 * name with upsert. The handler checks no session and no admin flag.
 */
module UploadRoute {
  import opened Wrappers
  import opened Text
  import opened ObjectPath
  import opened Storage

  datatype FormFile = FormFile(name: string, content: string)

  /** A form entry is either a file or a text value. */
  datatype FormValue = FileValue(file: FormFile) | TextValue(text: string)

  /** The three entries the handler reads; `None` is an entry the form does not carry. */
  datatype UploadForm = UploadForm(file: Option<FormValue>, bucket: Option<string>, folder: Option<string>)

  /**
   * The error each storage call reports, if any, and the message the
   * script engine gives when the `file` entry is text and has no `name`
   * to split.
   */
  datatype PostFaults = PostFaults(
    list: Option<string>,
    create: Option<string>,
    folder: Option<string>,
    upload: Option<string>,
    missingName: string)

  const NoFaults := PostFaults(None, None, None, None, "")

  datatype Body = ErrorBody(error: string) | Uploaded(publicUrl: string)

  datatype Reply = Reply(status: int, body: Body)

  datatype Handled = Handled(store: Store, reply: Reply)

  const MissingFields := "File and bucket are required"

  /** `!file`: a missing entry and the empty text are falsy; a file is not. */
  predicate FileGiven(v: Option<FormValue>) {
    v.Some? && (v.value.FileValue? || v.value.text != "")
  }

  /** `!bucket`. */
  predicate TextGiven(v: Option<string>) {
    v.Some? && v.value != ""
  }

  /** The folder as the handler uses it: a missing entry behaves as the empty one. */
  function FolderOf(form: UploadForm): string {
    form.folder.GetOr("")
  }

  /** The object path an uploaded file gets. */
  function UploadPath(form: UploadForm, f: FormFile, stem: string, stamp: string): string {
    Path(FolderOf(form), FileName(stem, stamp, Extension(f.name)))
  }

  /**
   * `after` is `before` with, at most, the folder's marker object set to ""
   * (only when a folder is given) and `key` set to `content`: every other
   * object is kept as it was and no other object appears.
   */
  predicate WritesAtMost(before: map<ObjectKey, string>, after: map<ObjectKey, string>,
                         bucket: string, folder: string, key: ObjectKey, content: string)
  {
    var marked := if folder == "" then before else before[ObjectKey(bucket, FolderMarker(folder)) := ""];
    after == before || after == marked || after == before[key := content] || after == marked[key := content]
  }

  /**
   * `if (folder)` the empty marker object is uploaded without upsert; its
   * error, if any, is ignored.
   */
  function MarkFolder(st: Store, bucket: string, folder: string, fault: Option<string>): (st': Store)
    ensures st'.buckets == st.buckets && st'.url == st.url
    ensures folder == "" ==> st' == st
    ensures st'.objects == st.objects
            || (folder != "" && st'.objects == st.objects[ObjectKey(bucket, FolderMarker(folder)) := ""])
    ensures folder != "" && fault.None? && HasBucket(st.buckets, bucket) ==>
              ObjectKey(bucket, FolderMarker(folder)) in st'.objects
    ensures forall k :: k != ObjectKey(bucket, FolderMarker(folder)) && k in st.objects ==>
              k in st'.objects && st'.objects[k] == st.objects[k]
  {
    if folder != "" then Upload(st, bucket, FolderMarker(folder), "", false, fault).store else st
  }

  /** After the bucket is in place: the folder marker (its error ignored), then the upload. */
  function StoreFile(st: Store, form: UploadForm, faults: PostFaults, stem: string, stamp: string): (h: Handled)
    requires FileGiven(form.file) && TextGiven(form.bucket)
    requires HasBucket(st.buckets, form.bucket.value)
    ensures h.store.buckets == st.buckets
    ensures h.reply.status == 200 <==> form.file.value.FileValue? && faults.upload.None?
    ensures h.reply.status == 200 ==>
              var path := UploadPath(form, form.file.value.file, stem, stamp);
              h.reply.body == Uploaded(PublicUrl(st.url, form.bucket.value, path))
              && ObjectKey(form.bucket.value, path) in h.store.objects
              && h.store.objects[ObjectKey(form.bucket.value, path)] == form.file.value.file.content
    ensures form.file.value.TextValue? ==> h.reply == Reply(500, ErrorBody("Server error: " + faults.missingName))
    ensures form.file.value.FileValue? && faults.upload.Some? ==>
              h.reply == Reply(500, ErrorBody("Error uploading file: " + faults.upload.value))
    ensures form.file.value.FileValue? ==>
              var f := form.file.value.file;
              WritesAtMost(st.objects, h.store.objects, form.bucket.value, FolderOf(form),
                           ObjectKey(form.bucket.value, UploadPath(form, f, stem, stamp)), f.content)
    ensures form.file.value.TextValue? ==>
              h.store.objects == st.objects
              || (FolderOf(form) != ""
                  && h.store.objects == st.objects[ObjectKey(form.bucket.value, FolderMarker(FolderOf(form))) := ""])
  {
    var bucket := form.bucket.value;
    var folder := FolderOf(form);
    var st1 := MarkFolder(st, bucket, folder, faults.folder);
    match form.file.value
    case TextValue(_) =>
      Handled(st1, Reply(500, ErrorBody("Server error: " + faults.missingName)))
    case FileValue(f) =>
      var path := UploadPath(form, f, stem, stamp);
      var c := Upload(st1, bucket, path, f.content, true, faults.upload);
      match c.error
      case Some(e) => Handled(c.store, Reply(500, ErrorBody("Error uploading file: " + e)))
      case None => Handled(c.store, Reply(200, Uploaded(PublicUrl(st1.url, bucket, path))))
  }

  /** `POST`. The stem and the stamp stand for the random text and `Date.now()`. */
  function Post(st: Store, form: UploadForm, faults: PostFaults, stem: string, stamp: string): (h: Handled)
    ensures !FileGiven(form.file) || !TextGiven(form.bucket) ==>
              h == Handled(st, Reply(400, ErrorBody(MissingFields)))
    ensures h.reply.status == 400 <==> !FileGiven(form.file) || !TextGiven(form.bucket)
    ensures h.reply.status in {200, 400, 500}
    ensures h.store.url == st.url
    ensures FileGiven(form.file) && TextGiven(form.bucket) && faults.list.Some? ==>
              h == Handled(st, Reply(500, ErrorBody("Error listing buckets: " + faults.list.value)))
    ensures FileGiven(form.file) && TextGiven(form.bucket) && faults.list.None?
            && !HasBucket(st.buckets, form.bucket.value) && faults.create.Some? ==>
              h == Handled(st, Reply(500, ErrorBody("Error creating bucket: " + faults.create.value)))
    ensures h.reply.status == 200 <==>
              FileGiven(form.file) && TextGiven(form.bucket) && faults.list.None?
              && (HasBucket(st.buckets, form.bucket.value) || faults.create.None?)
              && form.file.value.FileValue? && faults.upload.None?
    ensures h.reply.status == 200 ==>
              var path := UploadPath(form, form.file.value.file, stem, stamp);
              h.reply.body == Uploaded(PublicUrl(st.url, form.bucket.value, path))
              && ObjectKey(form.bucket.value, path) in h.store.objects
              && h.store.objects[ObjectKey(form.bucket.value, path)] == form.file.value.file.content
    ensures FileGiven(form.file) && TextGiven(form.bucket) && faults.list.None?
            && (HasBucket(st.buckets, form.bucket.value) || faults.create.None?) ==>
              (form.file.value.TextValue? ==> h.reply == Reply(500, ErrorBody("Server error: " + faults.missingName)))
              && (form.file.value.FileValue? && faults.upload.Some? ==>
                    h.reply == Reply(500, ErrorBody("Error uploading file: " + faults.upload.value)))
    ensures FileGiven(form.file) && TextGiven(form.bucket) && form.file.value.FileValue? ==>
              var f := form.file.value.file;
              WritesAtMost(st.objects, h.store.objects, form.bucket.value, FolderOf(form),
                           ObjectKey(form.bucket.value, UploadPath(form, f, stem, stamp)), f.content)
    ensures FileGiven(form.file) && TextGiven(form.bucket) && form.file.value.TextValue? ==>
              h.store.objects == st.objects
              || (FolderOf(form) != ""
                  && h.store.objects == st.objects[ObjectKey(form.bucket.value, FolderMarker(FolderOf(form))) := ""])
  {
    if !FileGiven(form.file) || !TextGiven(form.bucket) then
      Handled(st, Reply(400, ErrorBody(MissingFields)))
    else if faults.list.Some? then
      Handled(st, Reply(500, ErrorBody("Error listing buckets: " + faults.list.value)))
    else
      var bucket := form.bucket.value;
      var c := if HasBucket(st.buckets, bucket) then Call(st, None) else CreateBucket(st, bucket, true, faults.create);
      match c.error
      case Some(e) => Handled(c.store, Reply(500, ErrorBody("Error creating bucket: " + e)))
      case None => StoreFile(c.store, form, faults, stem, stamp)
  }

  /**
   * A bucket is created only when none of that name is listed, and then
   * as a public one; no other bucket ever changes.
   */
  lemma BucketCreatedOnlyIfAbsent(st: Store, form: UploadForm, faults: PostFaults, stem: string, stamp: string)
    ensures var h := Post(st, form, faults, stem, stamp);
            h.store.buckets == st.buckets
            || (form.bucket.Some? && !HasBucket(st.buckets, form.bucket.value)
                && h.store.buckets == st.buckets + [Bucket(form.bucket.value, true)])
  {
  }

  /**
   * The folder marker is written only when a folder is given; without one
   * the only object that can change is the uploaded file's.
   */
  lemma MarkerOnlyWithFolder(st: Store, form: UploadForm, faults: PostFaults, stem: string, stamp: string)
    requires FileGiven(form.file) && TextGiven(form.bucket) && form.file.value.FileValue?
    requires FolderOf(form) == ""
    ensures var h := Post(st, form, faults, stem, stamp);
            var key := ObjectKey(form.bucket.value, UploadPath(form, form.file.value.file, stem, stamp));
            h.store.objects == st.objects || h.store.objects == st.objects[key := form.file.value.file.content]
  {
  }

  /** With a folder and no storage errors, both the marker and the file are in the bucket afterwards. */
  lemma FolderMarkerWritten(st: Store, form: UploadForm, stem: string, stamp: string)
    requires FileGiven(form.file) && TextGiven(form.bucket) && form.file.value.FileValue?
    requires FolderOf(form) != ""
    ensures var h := Post(st, form, NoFaults, stem, stamp);
            ObjectKey(form.bucket.value, FolderMarker(FolderOf(form))) in h.store.objects
            && h.reply.status == 200
  {
    UploadMissesMarker(FolderOf(form), stem, stamp, Extension(form.file.value.file.name));
  }

  /**
   * Anyone may upload: for every store, a form with a file and a bucket
   * succeeds whenever storage reports no error, and the reply carries the
   * public URL of the stored object, whose name keeps the file's extension.
   */
  lemma AnyoneCanUpload(st: Store, form: UploadForm, f: FormFile, stem: string, stamp: string)
    requires form.file == Some(FileValue(f)) && TextGiven(form.bucket)
    ensures var h := Post(st, form, NoFaults, stem, stamp);
            var path := UploadPath(form, f, stem, stamp);
            h.reply == Reply(200, Uploaded(PublicUrl(st.url, form.bucket.value, path)))
            && ObjectKey(form.bucket.value, path) in h.store.objects
            && h.store.objects[ObjectKey(form.bucket.value, path)] == f.content
            && EndsWith(path, "." + Extension(f.name))
  {
    var path := UploadPath(form, f, stem, stamp);
    var name := FileName(stem, stamp, Extension(f.name));
    if FolderOf(form) != "" {
      SuffixOfSuffix(FolderOf(form) + "/", name, "." + Extension(f.name));
    }
  }

  /** Uploading is an upsert: sending the same name twice leaves the second content. */
  lemma SecondUploadOverwrites(st: Store, form: UploadForm, f: FormFile, g: FormFile, stem: string, stamp: string)
    requires form.file == Some(FileValue(f)) && TextGiven(form.bucket) && f.name == g.name
    ensures var h1 := Post(st, form, NoFaults, stem, stamp);
            var h2 := Post(h1.store, form.(file := Some(FileValue(g))), NoFaults, stem, stamp);
            h2.store.objects[ObjectKey(form.bucket.value, UploadPath(form, f, stem, stamp))] == g.content
  {
    AnyoneCanUpload(st, form, f, stem, stamp);
    var h1 := Post(st, form, NoFaults, stem, stamp);
    AnyoneCanUpload(h1.store, form.(file := Some(FileValue(g))), g, stem, stamp);
  }

  /**
   * A non-empty text value in the `file` entry passes the 400 check and is
   * only rejected, with a 500, after the bucket has been created.
   */
  lemma TextFileFailsAfterProvisioning(st: Store, form: UploadForm, text: string, stem: string, stamp: string)
    requires form.file == Some(TextValue(text)) && text != "" && TextGiven(form.bucket)
    ensures var h := Post(st, form, NoFaults, stem, stamp);
            h.reply == Reply(500, ErrorBody("Server error: " + NoFaults.missingName))
            && HasBucket(h.store.buckets, form.bucket.value)
  {
  }
}

=== FILE: wrappers.dfy ===
/** Optional values: the model's counterpart of `null` / `undefined`. */
module Wrappers {

  datatype Option<+T> = None | Some(value: T) {

    /** The wrapped value, or `default` when absent (`x ?? default`). */
    function GetOr(default: T): T {
      match this
      case Some(v) => v
      case None => default
    }
  }
}
